=== FILE: README.md ===
# Population trends pipeline in Dafny

A model of the data pipeline inside `PopulationEDA.__init__` (`app_eda.py`), the
Streamlit dashboard that analyses a table of `(지역, 연도, 인구, 출생아수(명),
사망자수(명))` rows: region, year, population, births and deaths. Stripped of its
widgets and plots, the constructor is a fixed sequence of table transformations,
and each is modelled here as a pure function over `seq<Row>`:

1. **Normalisation** (`Table`, `Cells`). Every `-` cell becomes 0. The three count
   columns are then converted to 64-bit integers, and a cell that is not an
   integer, or does not fit in 64 bits, fails the whole table.
2. **National projection** (`Projection`). Take the `전국` (nationwide) rows sorted
   by year and keep the last `min(3, n)` of them. The 2035 population is the latest
   population plus the difference of the average births and deaths, times the
   years left to 2035.
3. **Five-year regional change** (`FiveYear`, `Pivoting`). Take the sixth-latest and
   the latest distinct year, chosen by position and not by subtracting five. Pivot
   those years' rows to region × year and drop the nationwide row. Then compute
   each region's increase and percentage rate, sorted by increase, largest first,
   with NaN increases last. With fewer than six distinct years the tab returns
   from the constructor.
4. **Top changes** (`Deltas`). Drop the nationwide rows. Each row's change is its
   population minus that of the closest earlier row of the same region, in row
   order. Keep the 100 largest changes, and style each one blue, red or white by
   its sign with `color_scale`.
5. **Heatmap** (`Pivoting`). The whole table pivoted to region × year.

`Pipeline.Run` strings the steps together as the constructor does. An exception
stops the constructor where it is raised, and the early `return` of the regional
tab skips every later tab. The `Report` it returns records which outputs were
produced and how the run ended. `Run` is a function, so the same upload always
yields the same report.

Modules, in dependency order: `Wrappers` (Option, Result), `Sequences`
(Min, boolean-mask filter, stable sort by key, NaN-last descending sort, sums),
`Cells` (integer text), `Table` (rows, errors, normalisation), `Pivoting`,
`Projection`, `FiveYear`, `Deltas`, `Pipeline`.

Semantics of the pandas calls as modelled:

- `df[mask]` keeps the matching rows (`Sequences.Filter`) in their original order
  (`Sequences.FilterKeepsOrder`).
- `sort_values` sorts by key (`Sequences.SortBy`, `Sequences.SortDescendingNoneLast`).
  pandas' default quicksort does not promise any order among equal keys, while the
  model's sorts are stable. `Projection.Project` and the regional ranking state
  contracts that hold for any tie order. `Sequences.SortSorted` and
  `Projection.ProjectOrderedNational` hold only for the stable sort.
- `tail(3)` keeps the last `min(3, n)` rows.
- `groupby('지역')['인구'].diff()` gives NaN (`None`) for a region's first row.
  After that it subtracts the previous row of the same region in row order.
- `nlargest(100, '증감')` ranks the rows that have a change, largest first. When
  fewer than 100 rows have a change, pandas fills the remaining places with the
  NaN rows in row order (`Deltas.Top`).
- `pivot` raises on a repeated (region, year) pair. This is modelled as
  `Failure(DuplicateEntry)`. A missing pair is a NaN cell (`None` from
  `Pivoting.Lookup`).

Behaviour of the code worth knowing, as modelled:

- The projection needs only one nationwide row. `tail(3)` takes what there is,
  and only `iloc[-1]` on an empty selection fails.
- A failure is not isolated to its tab. The constructor stops at the first
  exception, and fewer than six years end it before the top-change table and the
  heatmap.
- The year-over-year change follows row order within a region. The code never
  sorts by year there (`Deltas.RowOrderExample`).
- The top table is not limited to rows that have a change. When fewer than 100
  rows have one, NaN rows fill the remaining places (`Deltas.TopPadsWithNaN`).
- Counts are not checked to be non-negative. `-5` is an integer and survives
  normalisation; only the exact cell `-` becomes 0. In a count column read as
  text, a count beyond the 64-bit range makes `astype(int)` raise.
- Repeated (region, year) pairs make the pivot raise. The five-year tab checks
  only the two compared years; the heatmap checks the whole table.

## Model

| member | source | states |
|---|---|---|
| Table.Normalize | app_eda.py:20-21 | Normalisation fails, with InvalidData, exactly when some row has a count cell that is neither `-` nor an integer in the 64-bit range. Otherwise it keeps every row in place with its region and year, turns `-` into 0 and every other count cell into its integer value. |
| Table.IntegerCellKeepsValue | app_eda.py:20-21 | A count cell holding the decimal text of an integer n, negative ones included, becomes exactly n when n fits in 64 bits, and is rejected otherwise. |
| Table.NormalizeOneRow | app_eda.py:20-21 | A row with integer population and births and a `-` deaths cell normalises to those integers and 0, with its region and year unchanged. When either integer does not fit in 64 bits, the table fails with InvalidData. |
| Table.NonIntegerCellFails | app_eda.py:20-21 | Once a `-` births cell makes the births column text, a `1.5` births cell in another row fails the whole table with InvalidData. |
| Cells.ParseInt | app_eda.py:21 | A cell converts to an integer exactly when it is an optional sign followed by one or more digits. A leading minus gives a value ≤ 0; otherwise the value is ≥ 0. |
| Cells.ParseFormat | app_eda.py:21 | Reading back the canonical decimal text of any integer gives that integer (round trip). |
| Cells.ParseExamples | app_eda.py:20-21 | `-` alone, the empty cell and `1.5` are not integers. `007` is 7, `+12` is 12 and `-12` is -12. |
| Sequences.Filter | app_eda.py:34 | A boolean-mask selection keeps exactly the rows that satisfy the mask, each as often as in the table, and no other row. |
| Sequences.KeptIndices | app_eda.py:34 | The positions a mask selects: strictly increasing, each holding a matching row, and covering every matching row. |
| Sequences.FilterKeepsOrder | app_eda.py:34 | The selection's k-th row is the row at the k-th selected position, so the kept rows stay in table order. |
| Sequences.SortBy | app_eda.py:40 | Sorting by a key, here the year, gives a permutation of its input in ascending key order. |
| Sequences.SortSorted | app_eda.py:40 | Sorting rows already in year order leaves them unchanged. |
| Sequences.SortDescendingNoneLast | app_eda.py:62 | Sorting by a column that may be NaN gives a permutation whose values are in descending order. Exactly its first k entries have a value, where k is the input's count of non-NaN entries. |
| Projection.Estimate | app_eda.py:41-44 | The projection less the latest population, times the window's size, equals the window's total births less its total deaths, times the years from the latest year to 2035. |
| Projection.EstimateDirection | app_eda.py:41-44 | Before 2035, the projection exceeds the latest population exactly when the window saw more births than deaths, and falls short of it exactly when it saw fewer. |
| Projection.Project | app_eda.py:40-44 | The projection fails, with NoNationalRows, exactly when the table has no nationwide row. Otherwise it equals the 2035 formula over min(3, n) nationwide rows in ascending year order. No nationwide row left out of that window is more recent than one in it. |
| Projection.RecentIsWindow | app_eda.py:40 | The last min(3, n) rows of the year-sorted nationwide rows form such a window. |
| Projection.LatestIsMostRecent | app_eda.py:43 | The row the projection starts from is a nationwide row of the table, and no nationwide row has a later year. |
| Projection.SteadyState | app_eda.py:44 | When average births equal average deaths, the projection is the latest population unchanged. |
| Projection.BalancedTableIsSteady | app_eda.py:40-44 | Suppose every nationwide row has as many births as deaths. Then the projection succeeds and equals the population of a nationwide row with the latest year. |
| Projection.ProjectOrderedNational | app_eda.py:40-44 | For nationwide rows already in year order, the projection is the formula over the last min(3, n) of them. |
| Projection.ThreeYearExample | app_eda.py:40-44 | The rows (2020, 100, 10, 5), (2021, 102, 11, 6) and (2022, 105, 12, 7) project 170. |
| Projection.SingleRowExample | app_eda.py:40-44 | One nationwide row is enough: (2030, 1000, 30, 10) projects 1100. |
| FiveYear.DistinctYears | app_eda.py:51 | The sorted distinct years are strictly increasing and contain exactly the years of the table. |
| FiveYear.IncreasingCardinality | app_eda.py:51-52 | A strictly increasing list of years has as many distinct years as entries, so the length check counts distinct years. |
| FiveYear.ChooseWindow | app_eda.py:51-56 | There is no window exactly when there are fewer than six distinct years. Otherwise both compared years are in the data, the end is the latest year, and exactly five of the data's years lie after the start. |
| FiveYear.WindowByPositionExample | app_eda.py:51-56 | With the years 2000 and 2010-2014, the window is 2000 to 2014, not 2009 to 2014. |
| FiveYear.FiveYearChange | app_eda.py:51-62 | The regional tab returns early exactly when there are fewer than six distinct years. It fails with DuplicateEntry exactly when a (region, year) pair repeats within the two compared years. Otherwise its table is the window's change table (as FiveYear.ChangesFromCorrect states). |
| FiveYear.ChangesFromCorrect | app_eda.py:56-62 | There is one entry per non-national region with a row in either compared year, each region once. Each entry holds the table's populations for the two years, their difference when both exist, and the rate as that difference over a non-zero start times 100. Entries are in descending order of increase, with NaN increases last. |
| FiveYear.Rate | app_eda.py:60 | A rate exists exactly when the increase and a non-zero start population exist. Rate times start equals increase times 100. |
| FiveYear.ChangeExample | app_eda.py:59-60 | A region growing from 200 to 260 has increase 60 and rate 30.0. |
| Pivoting.Pivot | app_eda.py:95 | The pivot fails, with DuplicateEntry, exactly when a (region, year) pair repeats. Otherwise its index and columns are the table's regions and years. Its cells are exactly the pairs present, each holding that row's population. |
| Pivoting.LookupIsPopulation | app_eda.py:57-59 | A grid cell is NaN exactly when the table has no row for its pair. Otherwise it holds that row's population. |
| Pivoting.DuplicateExample | app_eda.py:95 | Two rows for the same region and year make the pivot fail. |
| Deltas.Deltas | app_eda.py:77 | Every row keeps its place and gets a change. The change is NaN exactly when no earlier row has its region. Otherwise it is the row's population minus that of the closest earlier row of the same region. |
| Deltas.YearOverYear | app_eda.py:76-77 | One entry per non-national row of the table, in table order. Each change is NaN exactly when no earlier row of the table has its region. Otherwise it is the population minus that of the closest earlier row of the same region. |
| Deltas.RegionalDelta | app_eda.py:76-77 | Dropping the nationwide rows before differencing changes no regional row's change. |
| Deltas.DeltaExample | app_eda.py:77 | One region listed as 50, 70, 65 has changes NaN, 20 and -5. |
| Deltas.RowOrderExample | app_eda.py:77 | A region listed as 2002, 2000, 2001 is differenced in that row order, not by year. |
| Deltas.Top | app_eda.py:78 | The top table has min(100, n) rows, all taken from the input. Its changes are in descending order. Exactly its first k places hold a change, where k is the number of input rows that have one. |
| Deltas.TopExcludesSmaller | app_eda.py:78 | No change left out of the top table exceeds a change in it. A row with a change is left out only when the table is full and every place in it holds a change. |
| Deltas.TopChanges | app_eda.py:76-78 | The changes tab keeps min(100, n) of the n non-national rows, in descending order of change with NaN last. Every entry is a non-national row of the table with its own change, and each is taken at most as often as it occurs. |
| Deltas.TopPadsWithNaN | app_eda.py:78 | With three rows and two changes, the third place of the table holds the NaN row. |
| Deltas.ColorScale | app_eda.py:80-88 | The style is the blue one exactly for a positive change and the red one exactly for a negative change. It is the white one exactly for zero or NaN. |
| Deltas.ColorScaleShape | app_eda.py:80-88 | Every style starts with `background-color: ` and ends with exactly one of the three colours. |
| Deltas.ColorBySign | app_eda.py:80-88 | Two changes get the same style exactly when they have the same sign. |
| Deltas.StylesDiffer | app_eda.py:81-87 | The three styles are pairwise different. |
| Pipeline.Styles | app_eda.py:90 | One style per change cell of the top table: blue exactly for a rise, red exactly for a fall, white exactly for no change or NaN. |
| Pipeline.Finish | app_eda.py:74-97 | After the regional tab, the top table is always the changes tab's table and its styles are that table's styles. The heatmap is produced and the run completes exactly when no (region, year) pair repeats; the heatmap is then the table's pivot. Otherwise the run ends with DuplicateEntry. |
| Pipeline.Analyse | app_eda.py:32-97 | On a normalised table, a projection exists exactly when the table has a nationwide row; its absence is the NoNationalRows crash. The run returns early exactly when there is a projection and fewer than six distinct years. The five-year table, and with it the top table and its styles, exists exactly when there is a projection and a window and the window's rows repeat no pair, even when the heatmap pivot later raises. It completes exactly when there is a projection and a window, and neither pivot meets a repeated pair. Every output produced is the one its tab computes: the projection, the five-year table, the top table with its styles, and the heatmap. |
| Pipeline.Run | app_eda.py:20-97 | The whole constructor crashes with InvalidData exactly when normalisation fails, and with NoNationalRows exactly when normalisation succeeds and no projection is drawn. It draws a projection exactly when normalisation succeeds and there is a nationwide row. It returns early exactly when it draws a projection and the data has fewer than six distinct years. On the normalised table, the five-year table, the top table and its styles exist exactly when there is a projection and a window whose rows repeat no pair. It completes exactly when, on the normalised table, there is a projection and a window and neither pivot meets a repeated pair. Every output produced is the one its tab computes on the normalised table. Every report is well ordered: an output exists only if the outputs before it do, and an early return leaves only the projection. |

## Left out

- Streamlit widgets, tabs, the upload flow and every rendering call (`st.*`, matplotlib, seaborn). These are UI and I/O. The model starts after `pd.read_csv`, from rows whose cells are already split.
- `df.info()` and `df.describe()` in the summary tab. These are display-only statistics.
- The `int(pred_pop):,` annotation, the `"{:,}"` formatting and the `.style` pipeline. These are presentation only; the style strings themselves are modelled (`Pipeline.Styles`).
- Floating-point arithmetic. Means, the projection and rates are exact `real`s, and changes and increases are exact integers. pandas holds the year-over-year changes as float64, which is exact only up to 2^53, and the five-year increase as float64 or int64 (see FiveYear.ChangesFromCorrect below).
- FiveYear.Rate: a zero start population gives None, where pandas gives ±inf (or NaN for a zero increase). The inf value is not modelled.
- Cells.ParseInt: accepts only an optional sign and ASCII digits. It does not model the surrounding whitespace, digit-group underscores and non-ASCII digits that Python's `int()` also accepts.
- Table.Normalize: treats every count cell as text. A count column with no `-` and only numbers, one with a fraction, is read by pandas as floats, and `astype(int)` then truncates `1.5` to 1 instead of failing. Table.NonIntegerCellFails therefore puts a `-` in the births column. Likewise, a numeric column holding a value in [2^63, 2^64) is read as unsigned 64-bit, and `astype(int)` wraps it to a negative number instead of raising.
- Table.Normalize: reports a count beyond the 64-bit range as InvalidData, like a non-integer cell; for a count column read as text, pandas raises OverflowError there rather than ValueError. Both end the run.
- FiveYear.ChangesFromCorrect: the increase is exact. When every (region, year) cell of the window's grid is present, pandas keeps the population columns as int64, and the subtraction wraps silently past ±2^63, which can flip the sign of the increase and the rate. Only counts near the 64-bit limit reach it.
- Table.NormalizeOneRow: its overflow clause holds only for count columns read as text. In this one-row table pandas reads the population and births columns as numbers, so a value in [2^63, 2^64) wraps through uint64 and a larger one is cast from float64, neither raising.
- Table.Normalize: replaces `-` only in the three count columns. `df.replace('-', 0)` also touches the region and year columns; there, a `-` cell would become 0 rather than stay text.
- Tie order under pandas' unstable default sort is not modelled; the model's sorts are stable. Projection.Project computes one valid window, and its contract admits any window pandas may pick when nationwide years repeat. Deltas.Top keeps ties in row order, as `nlargest` does on its `keep='first'` path; with at most 100 rows pandas sorts with the default quicksort, which does not promise that order.
- Sequences.SortSorted: holds only for a stable sort. pandas' quicksort may reorder rows of equal year in an already sorted table.
- Projection.ProjectOrderedNational: holds only for a stable sort. When nationwide years repeat, pandas may fill the three-row window with other rows of the tied year, which changes the means.
- The order of the pivot's index and columns (pandas sorts the labels). The grid is modelled as sets and a map, which carry no order.
- Plotting-level behaviour of NaN cells in the bar charts and the heatmap.

=== FILE: cells.dfy ===
/** Integer coercion of one count cell, the `astype(int)` applied to the
    population, births and deaths columns. A cell converts when it is an
    optional sign followed by at least one ASCII digit. */
module Cells {
  import opened Wrappers

  predicate IsDigit(c: char)
  {
    '0' <= c <= '9'
  }

  predicate AllDigits(s: string)
  {
    forall i :: 0 <= i < |s| ==> IsDigit(s[i])
  }

  function DigitValue(c: char): (d: nat)
    requires IsDigit(c)
    ensures d < 10
  {
    (c as int) - ('0' as int)
  }

  function DigitChar(d: nat): (c: char)
    requires d < 10
    ensures IsDigit(c) && DigitValue(c) == d
  {
    (('0' as int) + d) as char
  }

  /** Value of a run of decimal digits, most significant digit first. */
  function DigitsValue(s: string): nat
    requires AllDigits(s)
  {
    if |s| == 0 then 0 else DigitsValue(s[..|s| - 1]) * 10 + DigitValue(s[|s| - 1])
  }

  predicate IsSign(c: char)
  {
    c == '+' || c == '-'
  }

  /** The text of an integer: an optional sign, then one or more digits. */
  predicate IsIntegerText(s: string)
  {
    if |s| > 0 && IsSign(s[0]) then |s| > 1 && AllDigits(s[1..])
    else |s| > 0 && AllDigits(s)
  }

  /** Converts a cell to an integer, or reports that it is not one. */
  function ParseInt(s: string): (r: Option<int>)
    ensures r.Some? <==> IsIntegerText(s)
    ensures r.Some? && s[0] == '-' ==> r.value <= 0
    ensures r.Some? && s[0] != '-' ==> r.value >= 0
  {
    if |s| > 0 && IsSign(s[0]) then
      if |s| > 1 && AllDigits(s[1..]) then
        var magnitude: int := DigitsValue(s[1..]);
        Some(if s[0] == '-' then -magnitude else magnitude)
      else None
    else if |s| > 0 && AllDigits(s) then Some(DigitsValue(s))
    else None
  }

  /** Canonical decimal text of a natural number. */
  function FormatNat(n: nat): (s: string)
    ensures |s| > 0 && AllDigits(s)
  {
    if n < 10 then [DigitChar(n)] else FormatNat(n / 10) + [DigitChar(n % 10)]
  }

  /** Canonical decimal text of an integer, with a leading minus when negative. */
  function FormatInt(n: int): (s: string)
    ensures |s| > 0
  {
    if n < 0 then "-" + FormatNat(-n) else FormatNat(n)
  }

  lemma {:induction false} DigitsOfFormat(n: nat)
    ensures DigitsValue(FormatNat(n)) == n
  {
    if n >= 10 {
      var s := FormatNat(n);
      DigitsOfFormat(n / 10);
      assert s[..|s| - 1] == FormatNat(n / 10);
    }
  }

  /** Reading back the canonical text of any integer gives that integer. */
  lemma {:induction false} ParseFormat(n: int)
    ensures ParseInt(FormatInt(n)) == Some(n)
  {
    var s := FormatInt(n);
    if n < 0 {
      var digits := FormatNat(-n);
      assert s == "-" + digits;
      assert s[0] == '-' && s[1..] == digits;
      DigitsOfFormat(-n);
      assert ParseInt(s) == Some(0 - DigitsValue(digits) as int);
    } else {
      DigitsOfFormat(n);
      assert !IsSign(s[0]);
    }
  }

  /** Neither the missing-value placeholder nor the empty cell is an integer,
      while leading zeros and an explicit plus sign are accepted. */
  lemma ParseExamples()
    ensures ParseInt("-") == None
    ensures ParseInt("") == None
    ensures ParseInt("1.5") == None
    ensures ParseInt("007") == Some(7)
    ensures ParseInt("+12") == Some(12)
    ensures ParseInt("-12") == Some(-12)
  {
    assert !AllDigits("1.5") by { assert !IsDigit("1.5"[1]); }
    assert "+12"[1..] == "12";
    assert "-12"[1..] == "12";
    assert "12"[..1] == "1";
    assert "007"[..2] == "00";
    assert "00"[..1] == "0";
    assert "0"[..0] == "";
    assert DigitsValue("0") == 0;
    assert DigitsValue("00") == 0;
    assert DigitsValue("007") == 7;
  }
}

=== FILE: deltas.dfy ===
/** The changes tab: every non-national row's population change since the
    previous row of the same region, `groupby('지역')['인구'].diff()`, which
    follows the table's row order and never sorts by year; the 100 largest
    changes, `nlargest(100, '증감')`; and the sign colouring of the change
    column. */
module Deltas {
  import opened Wrappers
  import opened Table
  import opened Sequences

  /** How many rows the changes table keeps. */
  const TopCount: nat := 100

  /** A row with its change; None is the NaN of a region's first row. */
  datatype DeltaRow = DeltaRow(row: Row, delta: Option<int>)

  function DeltaOf(d: DeltaRow): Option<int>
  {
    d.delta
  }

  /** The position of the last row of region `g` in `s`, if there is one. */
  function LastIndexOf(s: seq<Row>, g: string): (r: Option<nat>)
    ensures r.None? <==> forall k :: 0 <= k < |s| ==> s[k].region != g
    ensures r.Some? ==> r.value < |s| && s[r.value].region == g
    ensures r.Some? ==> forall k :: r.value < k < |s| ==> s[k].region != g
  {
    if |s| == 0 then None
    else if s[|s| - 1].region == g then Some(|s| - 1)
    else
      var init := s[..|s| - 1];
      assert forall k :: 0 <= k < |init| ==> init[k] == s[k];
      LastIndexOf(init, g)
  }

  /** `d` is the change of row `i`: NaN when no earlier row has its region,
      otherwise its population minus that of the closest earlier row of the
      same region. */
  ghost predicate IsDeltaAt(t: seq<Row>, i: int, d: Option<int>)
    requires 0 <= i < |t|
  {
    && (d.None? <==> forall k :: 0 <= k < i ==> t[k].region != t[i].region)
    && (d.Some? ==> exists j :: 0 <= j < i && t[j].region == t[i].region
                               && (forall k :: j < k < i ==> t[k].region != t[i].region)
                               && d.value == t[i].population - t[j].population)
  }

  function DeltaAt(t: seq<Row>, i: int): (d: Option<int>)
    requires 0 <= i < |t|
    ensures IsDeltaAt(t, i, d)
  {
    var earlier := t[..i];
    assert forall k :: 0 <= k < i ==> earlier[k] == t[k];
    match LastIndexOf(earlier, t[i].region)
    case None => None
    case Some(j) => Some(t[i].population - t[j].population)
  }

  /** `groupby(region).diff()` on the population column: one entry per row, in row order. */
  function Deltas(t: seq<Row>): (r: seq<DeltaRow>)
    ensures |r| == |t|
    ensures forall i :: 0 <= i < |t| ==> r[i].row == t[i] && IsDeltaAt(t, i, r[i].delta)
  {
    seq(|t|, i requires 0 <= i < |t| => DeltaRow(t[i], DeltaAt(t, i)))
  }

  /** The changes of the non-national rows: one entry per non-national row
      of `t`, in the order of `t`, each with its change among the rows of `t`. */
  function YearOverYear(t: seq<Row>): (r: seq<DeltaRow>)
    ensures |r| == |KeptIndices(t, IsRegional)|
    ensures forall k :: 0 <= k < |r| ==>
      && r[k].row == t[KeptIndices(t, IsRegional)[k]]
      && IsDeltaAt(t, KeptIndices(t, IsRegional)[k], r[k].delta)
  {
    var f, idx := Filter(t, IsRegional), KeptIndices(t, IsRegional);
    FilterKeepsOrder(t, IsRegional);
    assert Positions(t, f, idx);
    forall k | 0 <= k < |f|
      ensures IsDeltaAt(t, idx[k], Deltas(f)[k].delta)
    {
      RegionalDelta(t, f, idx, k, Deltas(f)[k].delta);
    }
    Deltas(f)
  }

  /** `f` lists the rows of `t` at the increasing positions `idx`, which
      include every non-national row. */
  ghost predicate Positions(t: seq<Row>, f: seq<Row>, idx: seq<nat>)
  {
    && |f| == |idx|
    && (forall k :: 0 <= k < |idx| ==> idx[k] < |t| && f[k] == t[idx[k]])
    && (forall a, b :: 0 <= a < b < |idx| ==> idx[a] < idx[b])
    && (forall i :: 0 <= i < |t| && IsRegional(t[i]) ==> i in idx)
  }

  /** Among increasing positions, a smaller position comes earlier. */
  lemma PositionOrder(idx: seq<nat>, a: int, b: int)
    requires forall a, b :: 0 <= a < b < |idx| ==> idx[a] < idx[b]
    requires 0 <= a < |idx| && 0 <= b < |idx| && idx[a] < idx[b]
    ensures a < b
  {
  }

  /** Dropping the national rows changes no regional row's change: the
      closest earlier row of a region is regional too. */
  lemma RegionalDelta(t: seq<Row>, f: seq<Row>, idx: seq<nat>, k: nat, d: Option<int>)
    requires Positions(t, f, idx)
    requires k < |f| && IsRegional(f[k]) && IsDeltaAt(f, k, d)
    ensures IsDeltaAt(t, idx[k], d)
  {
    if d.None? {
      RegionalFirst(t, f, idx, k);
    } else {
      var j :| && 0 <= j < k && f[j].region == f[k].region
               && (forall l :: j < l < k ==> f[l].region != f[k].region)
               && d.value == f[k].population - f[j].population;
      RegionalLater(t, f, idx, j, k);
    }
  }

  /** The first listed row of a region is its first row in `t`. */
  lemma RegionalFirst(t: seq<Row>, f: seq<Row>, idx: seq<nat>, k: nat)
    requires Positions(t, f, idx)
    requires k < |f| && IsRegional(f[k])
    requires forall l :: 0 <= l < k ==> f[l].region != f[k].region
    ensures IsDeltaAt(t, idx[k], None)
  {
    NoEarlierRegion(t, f, idx, 0, k);
    assert t[idx[k]] == f[k];
    FirstOfRegion(t, idx[k]);
  }

  /** The closest earlier listed row of a region is its closest earlier row in `t`. */
  lemma RegionalLater(t: seq<Row>, f: seq<Row>, idx: seq<nat>, j: nat, k: nat)
    requires Positions(t, f, idx)
    requires j < k < |f| && IsRegional(f[k]) && f[j].region == f[k].region
    requires forall l :: j < l < k ==> f[l].region != f[k].region
    ensures IsDeltaAt(t, idx[k], Some(f[k].population - f[j].population))
  {
    NoEarlierRegion(t, f, idx, j + 1, k);
    assert idx[j] < idx[k] && t[idx[j]] == f[j] && t[idx[k]] == f[k];
    ClosestOfRegion(t, idx[j], idx[k], Some(f[k].population - f[j].population));
  }

  /** A row with no earlier row of its region has no change. */
  lemma FirstOfRegion(t: seq<Row>, i: nat)
    requires i < |t|
    requires forall m :: 0 <= m < i ==> t[m].region != t[i].region
    ensures IsDeltaAt(t, i, None)
  {
  }

  /** A row's change is measured from the closest earlier row of its region. */
  lemma ClosestOfRegion(t: seq<Row>, j: nat, i: nat, d: Option<int>)
    requires j < i < |t| && t[j].region == t[i].region
    requires forall m :: j < m < i ==> t[m].region != t[i].region
    requires d == Some(t[i].population - t[j].population)
    ensures IsDeltaAt(t, i, d)
  {
  }

  /** When no listed row from position `j` to `k` shares row `k`'s region,
      no row of `t` between them does either. */
  lemma NoEarlierRegion(t: seq<Row>, f: seq<Row>, idx: seq<nat>, j: nat, k: nat)
    requires Positions(t, f, idx)
    requires j <= k < |f| && IsRegional(f[k])
    requires forall l :: j <= l < k ==> f[l].region != f[k].region
    ensures forall m :: (if j == 0 then 0 else idx[j - 1] + 1) <= m < idx[k] ==> t[m].region != f[k].region
  {
    var lo := if j == 0 then 0 else idx[j - 1] + 1;
    forall m | lo <= m < idx[k]
      ensures t[m].region != f[k].region
    {
      if IsRegional(t[m]) {
        assert m in idx;
        var l :| 0 <= l < |idx| && idx[l] == m;
        PositionOrder(idx, l, k);
        if j > 0 {
          PositionOrder(idx, j - 1, l);
        }
        assert t[m] == f[l];
      }
    }
  }

  /** `nlargest(n, '증감')`: the rows with the n largest changes, largest
      first, ties kept in row order. When fewer than n rows have a change,
      pandas fills the remaining places with NaN rows in row order. */
  function Top(ds: seq<DeltaRow>, n: nat): (r: seq<DeltaRow>)
    ensures |r| == Min(n, |ds|)
    ensures multiset(r) <= multiset(ds)
    ensures DescendingNoneLast(r, DeltaOf)
    ensures forall k :: 0 <= k < |r| ==> (r[k].delta.Some? <==> k < CountSome(ds, DeltaOf))
  {
    var sorted := SortDescendingNoneLast(ds, DeltaOf);
    var m := Min(n, |ds|);
    TopOfSorted(ds, sorted, m);
    sorted[..m]
  }

  /** No row left out of the top table has a larger change than a row in it,
      and a row with a change is left out only when the table is full of rows
      with changes. */
  lemma TopExcludesSmaller(ds: seq<DeltaRow>, n: nat)
    ensures var r := Top(ds, n);
      forall x, y :: x in multiset(ds) - multiset(r) && x.delta.Some? && y in r && y.delta.Some? ==>
        x.delta.value <= y.delta.value
    ensures var r := Top(ds, n);
      forall x :: x in multiset(ds) - multiset(r) && x.delta.Some? ==>
        |r| == n && forall k :: 0 <= k < |r| ==> r[k].delta.Some?
  {
    var sorted := SortDescendingNoneLast(ds, DeltaOf);
    var m := Min(n, |ds|);
    assert Top(ds, n) == sorted[..m];
    PrefixRemainder(ds, sorted, m);
    ExcludedRankBelow(sorted, m);
  }

  /** Taking the first `m` of a permutation of `ds` leaves out exactly the rest. */
  lemma PrefixRemainder(ds: seq<DeltaRow>, sorted: seq<DeltaRow>, m: nat)
    requires multiset(sorted) == multiset(ds) && m <= |sorted|
    ensures multiset(ds) - multiset(sorted[..m]) == multiset(sorted[m..])
    ensures m == |ds| ==> multiset(sorted[m..]) == multiset{}
  {
    assert sorted == sorted[..m] + sorted[m..];
    assert |sorted| == |ds| by {
      assert |multiset(sorted)| == |multiset(ds)|;
    }
  }

  lemma TopOfSorted(ds: seq<DeltaRow>, sorted: seq<DeltaRow>, m: nat)
    requires multiset(sorted) == multiset(ds) && DescendingNoneLast(sorted, DeltaOf)
    requires forall k :: 0 <= k < |sorted| ==> (sorted[k].delta.Some? <==> k < CountSome(ds, DeltaOf))
    requires m <= |sorted|
    ensures forall k :: 0 <= k < m ==> (sorted[..m][k].delta.Some? <==> k < CountSome(ds, DeltaOf))
    ensures multiset(sorted[..m]) <= multiset(ds)
    ensures DescendingNoneLast(sorted[..m], DeltaOf)
  {
    assert sorted == sorted[..m] + sorted[m..];
    assert multiset(sorted) == multiset(sorted[..m]) + multiset(sorted[m..]);
    PrefixKeepsCount(sorted, m, CountSome(ds, DeltaOf));
  }

  lemma PrefixKeepsCount(sorted: seq<DeltaRow>, m: nat, c: nat)
    requires m <= |sorted|
    requires forall k :: 0 <= k < |sorted| ==> (sorted[k].delta.Some? <==> k < c)
    ensures forall k :: 0 <= k < m ==> (sorted[..m][k].delta.Some? <==> k < c)
  {
  }

  /** Past position `m` of a ranked sequence, no change exceeds one before it,
      and a change there means every place before it holds a change. */
  lemma ExcludedRankBelow(sorted: seq<DeltaRow>, m: nat)
    requires DescendingNoneLast(sorted, DeltaOf)
    requires m <= |sorted|
    ensures forall x, y :: x in multiset(sorted[m..]) && x.delta.Some? && y in sorted[..m] && y.delta.Some? ==>
              x.delta.value <= y.delta.value
    ensures forall x :: x in multiset(sorted[m..]) && x.delta.Some? ==>
              forall k :: 0 <= k < m ==> sorted[k].delta.Some?
  {
    forall x | x in multiset(sorted[m..])
      ensures exists b :: m <= b < |sorted| && sorted[b] == x
    {
      assert x in sorted[m..];
    }
  }

  /** `x` is a non-national row of `t` together with that row's change. */
  ghost predicate IsRegionalChange(t: seq<Row>, x: DeltaRow)
  {
    exists i :: 0 <= i < |t| && IsRegional(t[i]) && x.row == t[i] && IsDeltaAt(t, i, x.delta)
  }

  /** The changes tab's table: the 100 largest changes of the non-national
      rows (all of them when there are fewer), largest first, rows without a
      change last. */
  function TopChanges(t: seq<Row>): (r: seq<DeltaRow>)
    ensures |r| == Min(TopCount, |KeptIndices(t, IsRegional)|)
    ensures DescendingNoneLast(r, DeltaOf)
    ensures multiset(r) <= multiset(YearOverYear(t))
    ensures forall k :: 0 <= k < |r| ==> IsRegionalChange(t, r[k])
  {
    var r := Top(YearOverYear(t), TopCount);
    ChangesOfTable(t, r);
    r
  }

  /** Every entry drawn from the year-over-year changes is a regional row with its change. */
  lemma ChangesOfTable(t: seq<Row>, r: seq<DeltaRow>)
    requires multiset(r) <= multiset(YearOverYear(t))
    ensures forall k :: 0 <= k < |r| ==> IsRegionalChange(t, r[k])
  {
    var ds, idx := YearOverYear(t), KeptIndices(t, IsRegional);
    forall k | 0 <= k < |r|
      ensures IsRegionalChange(t, r[k])
    {
      assert r[k] in multiset(r);
      assert r[k] in ds;
      var l :| 0 <= l < |ds| && ds[l] == r[k];
      assert IsRegional(t[idx[l]]) && r[k].row == t[idx[l]];
    }
  }

  const StylePrefix: string := "background-color: "
  const Blue: string := "#add8e6"
  const Red: string := "#f4cccc"
  const White: string := "white"

  lemma StylesDiffer()
    ensures StylePrefix + Blue != StylePrefix + Red
    ensures StylePrefix + Blue != StylePrefix + White
    ensures StylePrefix + Red != StylePrefix + White
  {
    var n := |StylePrefix|;
    assert (StylePrefix + Blue)[n + 1] != (StylePrefix + Red)[n + 1];
    assert (StylePrefix + Blue)[n] != (StylePrefix + White)[n];
    assert (StylePrefix + Red)[n] != (StylePrefix + White)[n];
  }

  /** `color_scale`: the CSS style of a change cell. A NaN change fails both
      comparisons and is styled like zero. */
  function ColorScale(val: Option<int>): (r: string)
    ensures r == StylePrefix + Blue <==> val.Some? && val.value > 0
    ensures r == StylePrefix + Red <==> val.Some? && val.value < 0
    ensures r == StylePrefix + White <==> val.None? || val.value == 0
  {
    StylesDiffer();
    var color := StylePrefix;
    if val.Some? && val.value > 0 then color + Blue
    else if val.Some? && val.value < 0 then color + Red
    else color + White
  }

  /** Every style starts with the same prefix and ends with exactly one of the three colours. */
  lemma ColorScaleShape(val: Option<int>)
    ensures |ColorScale(val)| > |StylePrefix| && ColorScale(val)[..|StylePrefix|] == StylePrefix
    ensures var c := ColorScale(val)[|StylePrefix|..];
      (c == Blue || c == Red || c == White) && !(c == Blue && c == Red)
      && !(c == Blue && c == White) && !(c == Red && c == White)
  {
    var r := ColorScale(val);
    var c := r[|StylePrefix|..];
    assert r == StylePrefix + c;
    StylesDiffer();
  }

  /** Two changes get the same style exactly when they have the same sign. */
  lemma ColorBySign(a: int, b: int)
    ensures ColorScale(Some(a)) == ColorScale(Some(b)) <==>
      (a > 0 && b > 0) || (a < 0 && b < 0) || (a == 0 && b == 0)
  {
    ColorScaleShape(Some(a));
  }

  /** Rows of one region in the order 50, 70, 65 change by 20 and then -5;
      the first row has no change. */
  lemma DeltaExample()
    ensures var t := [Row("A", 2000, 50, 0, 0), Row("A", 2001, 70, 0, 0), Row("A", 2002, 65, 0, 0)];
      Deltas(t) == [DeltaRow(t[0], None), DeltaRow(t[1], Some(20)), DeltaRow(t[2], Some(-5))]
  {
    var t := [Row("A", 2000, 50, 0, 0), Row("A", 2001, 70, 0, 0), Row("A", 2002, 65, 0, 0)];
    assert DeltaAt(t, 0) == None;
    assert t[..1] == [t[0]];
    assert DeltaAt(t, 1) == Some(20);
    assert t[..2] == [t[0], t[1]];
    assert DeltaAt(t, 2) == Some(-5);
  }

  /** The change follows row order, not year order: a region listed as 2002,
      2000, 2001 is differenced in that order. */
  lemma RowOrderExample()
    ensures var t := [Row("A", 2002, 65, 0, 0), Row("A", 2000, 50, 0, 0), Row("A", 2001, 70, 0, 0)];
      Deltas(t) == [DeltaRow(t[0], None), DeltaRow(t[1], Some(-15)), DeltaRow(t[2], Some(20))]
  {
    var t := [Row("A", 2002, 65, 0, 0), Row("A", 2000, 50, 0, 0), Row("A", 2001, 70, 0, 0)];
    assert DeltaAt(t, 0) == None;
    assert t[..1] == [t[0]];
    assert DeltaAt(t, 1) == Some(-15);
    assert t[..2] == [t[0], t[1]];
    assert DeltaAt(t, 2) == Some(20);
  }

  /** With fewer rows that have a change than places in the table, the NaN
      row of the region's first year fills the last place. */
  lemma TopPadsWithNaN()
    ensures var t := [Row("A", 2000, 50, 0, 0), Row("A", 2001, 70, 0, 0), Row("A", 2002, 65, 0, 0)];
      |Top(Deltas(t), TopCount)| == 3 && Top(Deltas(t), TopCount)[2].delta.None?
  {
    var t := [Row("A", 2000, 50, 0, 0), Row("A", 2001, 70, 0, 0), Row("A", 2002, 65, 0, 0)];
    DeltaExample();
    TwoChangesOfThree(DeltaRow(t[0], None), DeltaRow(t[1], Some(20)), DeltaRow(t[2], Some(-5)));
  }

  lemma TwoChangesOfThree(a: DeltaRow, b: DeltaRow, c: DeltaRow)
    requires a.delta.None? && b.delta.Some? && c.delta.Some?
    ensures CountSome([a, b, c], DeltaOf) == 2
  {
    var ds := [a, b, c];
    assert ds[..2] == [a, b] && ds[..2][..1] == [a] && ds[..2][..1][..0] == [];
    assert CountSome([a], DeltaOf) == 0;
    assert CountSome([a, b], DeltaOf) == 1;
  }
}

=== FILE: five_year.dfy ===
/** The regional tab: the population change of every region over the window
    from the sixth-latest to the latest year present in the data. The window
    is chosen by position in the sorted list of distinct years, not by
    subtracting five from the latest year. */
module FiveYear {
  import opened Wrappers
  import opened Table
  import opened Sequences
  import opened Pivoting

  /** The number of distinct years the window spans, both ends included. */
  const Span: nat := 6

  predicate StrictlyIncreasing(s: seq<int>)
  {
    forall i, j :: 0 <= i < j < |s| ==> s[i] < s[j]
  }

  function InsertYear(y: int, s: seq<int>): (r: seq<int>)
    requires StrictlyIncreasing(s)
    ensures StrictlyIncreasing(r)
    ensures forall z :: z in r <==> z in s || z == y
  {
    if |s| == 0 then [y]
    else if y < s[0] then [y] + s
    else if y == s[0] then s
    else
      var rest := s[1..];
      assert StrictlyIncreasing(rest) by {
        forall i, j | 0 <= i < j < |rest|
          ensures rest[i] < rest[j]
        {
          assert rest[i] == s[i + 1] && rest[j] == s[j + 1];
        }
      }
      var tail := InsertYear(y, rest);
      assert s == [s[0]] + rest;
      assert forall k :: 0 <= k < |tail| ==> s[0] < tail[k] by {
        forall k | 0 <= k < |tail|
          ensures s[0] < tail[k]
        {
          assert tail[k] in tail;
          if tail[k] != y {
            var i :| 0 <= i < |rest| && rest[i] == tail[k];
            assert rest[i] == s[i + 1];
          }
        }
      }
      [s[0]] + tail
  }

  /** `sorted(df['연도'].unique())`: every year of the table once, ascending. */
  function DistinctYears(t: seq<Row>): (r: seq<int>)
    ensures StrictlyIncreasing(r)
    ensures forall y :: y in r <==> exists i :: 0 <= i < |t| && t[i].year == y
  {
    if |t| == 0 then []
    else
      var init := t[..|t| - 1];
      assert forall i :: 0 <= i < |t| - 1 ==> t[i] == init[i];
      InsertYear(t[|t| - 1].year, DistinctYears(init))
  }

  /** A strictly increasing sequence holds as many distinct values as it has elements. */
  lemma {:induction false} IncreasingCardinality(s: seq<int>)
    requires StrictlyIncreasing(s)
    ensures |set y | y in s| == |s|
  {
    if |s| > 0 {
      IncreasingTail(s);
      IncreasingCardinality(s[1..]);
      ElementsOfCons(s);
    }
  }

  lemma IncreasingTail(s: seq<int>)
    requires StrictlyIncreasing(s) && |s| > 0
    ensures StrictlyIncreasing(s[1..])
    ensures s[0] !in s[1..]
  {
    forall k | 0 <= k < |s[1..]|
      ensures s[1..][k] != s[0]
    {
      assert s[1..][k] == s[k + 1];
    }
  }

  /** The elements of a non-empty sequence: its head and those of its tail. */
  lemma ElementsOfCons(s: seq<int>)
    requires |s| > 0
    ensures (set y | y in s) == {s[0]} + (set y | y in s[1..])
  {
    var rest := s[1..];
    forall y | y in s
      ensures y == s[0] || y in rest
    {
      var k :| 0 <= k < |s| && s[k] == y;
      if k > 0 {
        assert rest[k - 1] == y;
      }
    }
    forall y | y in rest
      ensures y in s
    {
      var k :| 0 <= k < |rest| && rest[k] == y;
      assert s[k + 1] == y;
    }
  }

  /** In a strictly increasing sequence, exactly the elements after position
      `m` exceed the one at `m`. */
  lemma CountAbove(years: seq<int>, m: nat)
    requires StrictlyIncreasing(years) && m < |years|
    ensures |set y | y in years && years[m] < y| == |years| - m - 1
  {
    var later := years[m + 1..];
    assert (set y | y in years && years[m] < y) == (set y | y in later) by {
      forall y | y in years && years[m] < y
        ensures y in later
      {
        var i :| 0 <= i < |years| && years[i] == y;
        assert later[i - (m + 1)] == y;
      }
    }
    IncreasingCardinality(later);
  }

  /** The two compared years. */
  datatype Window = Window(start: int, end: int)

  /** The window over the sorted distinct years, or None when there are fewer than six. */
  function ChooseWindow(years: seq<int>): (r: Option<Window>)
    requires StrictlyIncreasing(years)
    ensures r.None? <==> |years| < Span
    ensures r.Some? ==> r.value.start in years && r.value.end in years && r.value.start < r.value.end
    ensures r.Some? ==> forall y :: y in years ==> y <= r.value.end
    ensures r.Some? ==> |set y | y in years && r.value.start < y| == Span - 1
  {
    if |years| < Span then None
    else
      var n := |years|;
      var w := Window(years[n - Span], years[n - 1]);
      CountAbove(years, n - Span);
      Some(w)
  }

  /** The window of a table. */
  function WindowOf(t: seq<Row>): Option<Window>
  {
    ChooseWindow(DistinctYears(t))
  }

  predicate InWindow(x: Row, w: Window)
  {
    x.year == w.start || x.year == w.end
  }

  function InWindowOf(w: Window): Row -> bool
  {
    x => InWindow(x, w)
  }

  /** `df[df['연도'].isin([end, start])]`: the rows of the two compared years, in table order. */
  function WindowRows(t: seq<Row>, w: Window): seq<Row>
  {
    Filter(t, InWindowOf(w))
  }

  /** Each region of `t` once, in order of first appearance. */
  function DistinctRegions(t: seq<Row>): (r: seq<string>)
    ensures Distinct(r)
    ensures forall g :: g in r <==> exists i :: 0 <= i < |t| && t[i].region == g
  {
    if |t| == 0 then []
    else
      var init := t[..|t| - 1];
      var g := t[|t| - 1].region;
      var d := DistinctRegions(init);
      assert forall i :: 0 <= i < |t| - 1 ==> t[i] == init[i];
      if g in d then d else d + [g]
  }

  datatype RegionalChange = RegionalChange(
    region: string,
    startPop: Option<int>,
    endPop: Option<int>,
    increase: Option<int>,
    rate: Option<real>)

  /** The percentage change relative to the start population; None stands for
      the NaN or infinite value pandas produces when a population is missing
      or the start population is 0. */
  function Rate(increase: Option<int>, start: Option<int>): (r: Option<real>)
    ensures r.Some? <==> increase.Some? && start.Some? && start.value != 0
    ensures r.Some? ==> r.value * start.value as real == increase.value as real * 100.0
  {
    if increase.Some? && start.Some? && start.value != 0 then
      Some(increase.value as real / start.value as real * 100.0)
    else None
  }

  /** One row of the regional table, read off the window's grid. */
  function ChangeFor(g: Grid, region: string, w: Window): RegionalChange
  {
    var s := Lookup(g, region, w.start);
    var e := Lookup(g, region, w.end);
    var increase := if s.Some? && e.Some? then Some(e.value - s.value) else None;
    RegionalChange(region, s, e, increase, Rate(increase, s))
  }

  /** `c` is the change the table records for its region over `w`: the start
      and end populations are the table's, the increase is their difference
      when both exist, and the rate is the increase as a percentage of a
      non-zero start. */
  ghost predicate ChangeOf(t: seq<Row>, w: Window, c: RegionalChange)
  {
    && PopulationIs(t, c.region, w.start, c.startPop)
    && PopulationIs(t, c.region, w.end, c.endPop)
    && (c.increase.Some? <==> c.startPop.Some? && c.endPop.Some?)
    && (c.increase.Some? ==> c.increase.value == c.endPop.value - c.startPop.value)
    && (c.rate.Some? <==> c.increase.Some? && c.startPop.value != 0)
    && (c.rate.Some? ==> c.rate.value * c.startPop.value as real == c.increase.value as real * 100.0)
  }

  function IncreaseOf(c: RegionalChange): Option<int>
  {
    c.increase
  }

  datatype Changes = Changes(window: Window, entries: seq<RegionalChange>)

  function Regions(cs: seq<RegionalChange>): (r: seq<string>)
    ensures |r| == |cs| && forall i :: 0 <= i < |cs| ==> r[i] == cs[i].region
  {
    seq(|cs|, i requires 0 <= i < |cs| => cs[i].region)
  }

  /** What the regional table promises about the window `c.window` of `t`:
      one entry per non-national region with a row in either compared year,
      each the change the table records, ordered by decreasing increase with
      the entries whose increase is NaN last. */
  ghost predicate ChangesOf(t: seq<Row>, c: Changes)
  {
    && DescendingNoneLast(c.entries, IncreaseOf)
    && Distinct(Regions(c.entries))
    && (forall g :: g in Regions(c.entries) <==>
          g != National && exists i :: 0 <= i < |t| && t[i].region == g && InWindow(t[i], c.window))
    && (forall k :: 0 <= k < |c.entries| ==> ChangeOf(t, c.window, c.entries[k]))
  }

  /** The five-year regional change: None when the data spans fewer than six
      distinct years (the tab's early return), DuplicateEntry when a
      (region, year) pair repeats within the two compared years. */
  function FiveYearChange(t: seq<Row>): (r: Result<Option<Changes>, Error>)
    ensures (r.Success? && r.value.None?) <==> |DistinctYears(t)| < Span
    ensures r.Failure? <==> WindowOf(t).Some? && !UniqueKeys(WindowRows(t, WindowOf(t).value))
    ensures r.Failure? ==> r.error == DuplicateEntry
    ensures r.Success? && r.value.Some? ==> Some(r.value.value.window) == WindowOf(t)
    ensures r.Success? && r.value.Some? ==> ChangesOf(t, r.value.value)
  {
    match WindowOf(t)
    case None => Success(None)
    case Some(w) =>
      match Pivot(WindowRows(t, w))
      case Failure(e) => Failure(e)
      case Success(grid) =>
        ChangesFromCorrect(t, w, grid);
        Success(Some(ChangesFrom(t, w, grid)))
  }

  /** One unranked entry per name in `regions`, read off `grid`. */
  function Unranked(grid: Grid, regions: seq<string>, w: Window): (u: seq<RegionalChange>)
    ensures |u| == |regions|
    ensures forall i :: 0 <= i < |regions| ==> u[i] == ChangeFor(grid, regions[i], w)
  {
    seq(|regions|, i requires 0 <= i < |regions| => ChangeFor(grid, regions[i], w))
  }

  /** The change table of window `w`, once its rows have pivoted into `grid`:
      one entry per regional name in the window, ranked by increase. */
  function ChangesFrom(t: seq<Row>, w: Window, grid: Grid): Changes
  {
    var regions := DistinctRegions(Filter(WindowRows(t, w), IsRegional));
    Changes(w, SortDescendingNoneLast(Unranked(grid, regions, w), IncreaseOf))
  }

  lemma ChangesFromCorrect(t: seq<Row>, w: Window, grid: Grid)
    requires Pivot(WindowRows(t, w)) == Success(grid)
    ensures ChangesFrom(t, w, grid).window == w
    ensures ChangesOf(t, ChangesFrom(t, w, grid))
  {
    var regions := DistinctRegions(Filter(WindowRows(t, w), IsRegional));
    var unsorted := Unranked(grid, regions, w);
    ChangesCorrect(t, w, WindowRows(t, w), grid, regions, unsorted, SortDescendingNoneLast(unsorted, IncreaseOf));
  }

  lemma ChangesCorrect(t: seq<Row>, w: Window, rows: seq<Row>, grid: Grid, regions: seq<string>,
                       unsorted: seq<RegionalChange>, entries: seq<RegionalChange>)
    requires rows == WindowRows(t, w) && Pivot(rows) == Success(grid)
    requires regions == DistinctRegions(Filter(rows, IsRegional))
    requires |unsorted| == |regions|
    requires forall i :: 0 <= i < |regions| ==> unsorted[i] == ChangeFor(grid, regions[i], w)
    requires multiset(entries) == multiset(unsorted) && DescendingNoneLast(entries, IncreaseOf)
    ensures ChangesOf(t, Changes(w, entries))
  {
    assert Regions(unsorted) == regions;
    RegionsStayDistinct(unsorted, entries);
    RankedRegions(t, w, rows, regions, unsorted, entries);
    RankedEntries(t, w, rows, grid, regions, unsorted, entries);
  }

  lemma RankedRegions(t: seq<Row>, w: Window, rows: seq<Row>, regions: seq<string>,
                      unsorted: seq<RegionalChange>, entries: seq<RegionalChange>)
    requires rows == WindowRows(t, w)
    requires regions == DistinctRegions(Filter(rows, IsRegional))
    requires Regions(unsorted) == regions
    requires multiset(entries) == multiset(unsorted)
    ensures forall g :: g in Regions(entries) <==>
      g != National && exists i :: 0 <= i < |t| && t[i].region == g && InWindow(t[i], w)
  {
    forall g
      ensures g in Regions(entries) <==>
        g != National && exists i :: 0 <= i < |t| && t[i].region == g && InWindow(t[i], w)
    {
      RegionMembership(t, w, rows, regions, unsorted, entries, g);
    }
  }

  lemma RankedEntries(t: seq<Row>, w: Window, rows: seq<Row>, grid: Grid, regions: seq<string>,
                      unsorted: seq<RegionalChange>, entries: seq<RegionalChange>)
    requires rows == WindowRows(t, w) && Pivot(rows) == Success(grid)
    requires |unsorted| == |regions|
    requires forall i :: 0 <= i < |regions| ==> unsorted[i] == ChangeFor(grid, regions[i], w)
    requires multiset(entries) == multiset(unsorted)
    ensures forall k :: 0 <= k < |entries| ==> ChangeOf(t, w, entries[k])
  {
    forall k | 0 <= k < |entries|
      ensures ChangeOf(t, w, entries[k])
    {
      assert entries[k] in multiset(unsorted);
      var i :| 0 <= i < |unsorted| && entries[k] == unsorted[i];
      EntryIsChange(t, w, rows, grid, regions[i]);
    }
  }

  /** Reordering entries with distinct regions keeps the regions distinct. */
  lemma RegionsStayDistinct(unsorted: seq<RegionalChange>, entries: seq<RegionalChange>)
    requires multiset(entries) == multiset(unsorted)
    requires Distinct(Regions(unsorted))
    ensures Distinct(Regions(entries))
  {
    assert Distinct(unsorted) by {
      forall i, j | 0 <= i < j < |unsorted|
        ensures unsorted[i] != unsorted[j]
      {
        assert Regions(unsorted)[i] != Regions(unsorted)[j];
      }
    }
    PermutationKeepsDistinct(unsorted, entries);
    forall k | 0 <= k < |entries|
      ensures exists i :: 0 <= i < |unsorted| && entries[k] == unsorted[i]
    {
      assert entries[k] in multiset(unsorted);
    }
    forall a, b | 0 <= a < b < |entries|
      ensures Regions(entries)[a] != Regions(entries)[b]
    {
      var i :| 0 <= i < |unsorted| && entries[a] == unsorted[i];
      var j :| 0 <= j < |unsorted| && entries[b] == unsorted[j];
      assert i != j;
      assert Regions(unsorted)[i] != Regions(unsorted)[j];
    }
  }

  lemma RegionMembership(t: seq<Row>, w: Window, rows: seq<Row>, regions: seq<string>,
                         unsorted: seq<RegionalChange>, entries: seq<RegionalChange>, g: string)
    requires rows == WindowRows(t, w)
    requires regions == DistinctRegions(Filter(rows, IsRegional))
    requires Regions(unsorted) == regions
    requires multiset(entries) == multiset(unsorted)
    ensures g in Regions(entries) <==>
      g != National && exists i :: 0 <= i < |t| && t[i].region == g && InWindow(t[i], w)
  {
    if g in Regions(entries) {
      var k :| 0 <= k < |entries| && entries[k].region == g;
      assert entries[k] in multiset(unsorted);
      var i :| 0 <= i < |unsorted| && unsorted[i] == entries[k];
      assert g in regions;
      RegionHasRow(t, w, rows, g);
    }
    if g != National && exists i :: 0 <= i < |t| && t[i].region == g && InWindow(t[i], w) {
      RowHasRegion(t, w, rows, g);
      var i :| 0 <= i < |regions| && regions[i] == g;
      assert unsorted[i] in multiset(entries);
      var k :| 0 <= k < |entries| && entries[k] == unsorted[i];
      assert Regions(entries)[k] == g;
    }
  }

  lemma RegionHasRow(t: seq<Row>, w: Window, rows: seq<Row>, g: string)
    requires rows == WindowRows(t, w)
    requires g in DistinctRegions(Filter(rows, IsRegional))
    ensures g != National && exists i :: 0 <= i < |t| && t[i].region == g && InWindow(t[i], w)
  {
    var regional := Filter(rows, IsRegional);
    var j :| 0 <= j < |regional| && regional[j].region == g;
    assert regional[j] in multiset(regional);
    FilterMembership(rows, IsRegional, regional[j]);
    FilterMembership(t, InWindowOf(w), regional[j]);
    var m :| 0 <= m < |t| && t[m] == regional[j];
  }

  lemma RowHasRegion(t: seq<Row>, w: Window, rows: seq<Row>, g: string)
    requires rows == WindowRows(t, w)
    requires g != National && exists i :: 0 <= i < |t| && t[i].region == g && InWindow(t[i], w)
    ensures g in DistinctRegions(Filter(rows, IsRegional))
  {
    var regional := Filter(rows, IsRegional);
    var m :| 0 <= m < |t| && t[m].region == g && InWindow(t[m], w);
    FilterMembership(t, InWindowOf(w), t[m]);
    FilterMembership(rows, IsRegional, t[m]);
    var j :| 0 <= j < |regional| && regional[j] == t[m];
    assert regional[j].region == g;
  }

  /** A population recorded for a compared year is the same in the window's rows and in the table. */
  lemma WindowPopulation(t: seq<Row>, w: Window, region: string, year: int, p: Option<int>)
    requires year == w.start || year == w.end
    requires PopulationIs(WindowRows(t, w), region, year, p)
    ensures PopulationIs(t, region, year, p)
  {
    var rows := WindowRows(t, w);
    if p.Some? {
      var i :| 0 <= i < |rows| && Key(rows[i]) == (region, year) && rows[i].population == p.value;
      assert rows[i] in multiset(rows);
      FilterMembership(t, InWindowOf(w), rows[i]);
      var j :| 0 <= j < |t| && t[j] == rows[i];
    } else {
      forall j | 0 <= j < |t|
        ensures Key(t[j]) != (region, year)
      {
        if InWindow(t[j], w) {
          FilterMembership(t, InWindowOf(w), t[j]);
          var i :| 0 <= i < |rows| && rows[i] == t[j];
        }
      }
    }
  }

  /** The increase and rate columns of one entry agree with its start and end populations. */
  lemma ChangeArithmetic(g: Grid, region: string, w: Window)
    ensures var c := ChangeFor(g, region, w);
      && (c.increase.Some? <==> c.startPop.Some? && c.endPop.Some?)
      && (c.increase.Some? ==> c.increase.value == c.endPop.value - c.startPop.value)
      && (c.rate.Some? <==> c.increase.Some? && c.startPop.value != 0)
      && (c.rate.Some? ==> c.rate.value * c.startPop.value as real == c.increase.value as real * 100.0)
  {
  }

  lemma EntryIsChange(t: seq<Row>, w: Window, rows: seq<Row>, grid: Grid, region: string)
    requires rows == WindowRows(t, w) && Pivot(rows) == Success(grid)
    ensures ChangeOf(t, w, ChangeFor(grid, region, w))
  {
    var c := ChangeFor(grid, region, w);
    LookupIsPopulation(rows, region, w.start);
    LookupIsPopulation(rows, region, w.end);
    WindowPopulation(t, w, region, w.start, c.startPop);
    WindowPopulation(t, w, region, w.end, c.endPop);
    ChangeArithmetic(grid, region, w);
  }

  /** The window follows the positions of the data's years: with a gap in
      the record, the start year lies more than five calendar years back. */
  lemma WindowByPositionExample()
    ensures ChooseWindow([2000, 2010, 2011, 2012, 2013, 2014]) == Some(Window(2000, 2014))
  {
  }

  /** A region growing from 200 to 260 gains 60 people, a 30 percent rise. */
  lemma ChangeExample()
    ensures ChangeFor(Grid({"A"}, {2018, 2023}, map[("A", 2018) := 200, ("A", 2023) := 260]), "A", Window(2018, 2023))
         == RegionalChange("A", Some(200), Some(260), Some(60), Some(30.0))
  {
  }
}

=== FILE: pipeline.dfy ===
/** One run of the dashboard constructor over an uploaded table. The tabs are
    filled in order: normalisation, the national projection, the five-year
    regional change, the top changes and the heatmap. An exception stops the
    run where it is raised, and the regional tab's early `return` leaves the
    constructor, so no later tab is filled in either case. */
module Pipeline {
  import opened Wrappers
  import opened Table
  import opened Projection
  import opened Pivoting
  import opened FiveYear
  import opened Deltas

  /** How a run ended: normally, by the regional tab's early return, or by an exception. */
  datatype Ending = Completed | ReturnedEarly | Crashed(error: Error)

  /** The outputs a run produced before it ended; None marks one it never reached. */
  datatype Report = Report(
    projection: Option<real>,
    changes: Option<Changes>,
    top: Option<seq<DeltaRow>>,
    styles: Option<seq<string>>,
    heatmap: Option<Grid>,
    ending: Ending)

  /** The style of every change cell of the top table: blue for a rise, red
      for a fall, white for no change or NaN. */
  function Styles(top: seq<DeltaRow>): (r: seq<string>)
    ensures |r| == |top|
    ensures forall i :: 0 <= i < |top| ==> r[i] == ColorScale(top[i].delta)
    ensures forall i :: 0 <= i < |top| ==>
      && (r[i] == StylePrefix + Blue <==> top[i].delta.Some? && top[i].delta.value > 0)
      && (r[i] == StylePrefix + Red <==> top[i].delta.Some? && top[i].delta.value < 0)
      && (r[i] == StylePrefix + White <==> top[i].delta.None? || top[i].delta.value == 0)
  {
    seq(|top|, i requires 0 <= i < |top| => ColorScale(top[i].delta))
  }

  /** The order in which the tabs are filled shows in every report: an
      output exists only if every earlier one does, the regional tab's early
      return leaves only the projection, and a completed run has them all. */
  predicate WellOrdered(r: Report)
  {
    && (r.changes.Some? ==> r.projection.Some?)
    && (r.top.Some? <==> r.changes.Some?)
    && (r.styles.Some? <==> r.top.Some?)
    && (r.heatmap.Some? ==> r.top.Some?)
    && (r.top.Some? ==> |r.top.value| <= TopCount && |r.styles.value| == |r.top.value|)
    && (r.ending == ReturnedEarly ==> r.projection.Some? && r.changes.None?)
    && (r.ending == Completed <==> r.heatmap.Some?)
    && (r.ending == Crashed(InvalidData) || r.ending == Crashed(NoNationalRows) ==> r.projection.None?)
  }

  /** The top table and the heatmap, once the regional tab has produced `c`. */
  function Finish(t: seq<Row>, p: real, c: Changes): (r: Report)
    ensures WellOrdered(r) && r.projection == Some(p) && r.changes == Some(c)
    ensures r.ending == Completed <==> UniqueKeys(t)
    ensures r.ending != Completed ==> r.ending == Crashed(DuplicateEntry)
    ensures r.top == Some(TopChanges(t)) && r.styles == Some(Styles(TopChanges(t)))
    ensures r.heatmap.Some? ==> Pivot(t) == Success(r.heatmap.value)
  {
    var top := TopChanges(t);
    match Pivot(t)
    case Failure(e) => Report(Some(p), Some(c), Some(top), Some(Styles(top)), None, Crashed(e))
    case Success(g) => Report(Some(p), Some(c), Some(top), Some(Styles(top)), Some(g), Completed)
  }

  /** Every tab after normalisation, on the normalised table `t`. */
  function Analyse(t: seq<Row>): (r: Report)
    ensures WellOrdered(r)
    ensures r.ending != Crashed(InvalidData)
    ensures r.projection.Some? <==> exists i :: 0 <= i < |t| && t[i].region == National
    ensures r.ending == Crashed(NoNationalRows) <==> r.projection.None?
    ensures r.ending == ReturnedEarly <==> r.projection.Some? && |DistinctYears(t)| < Span
    ensures r.ending == Completed <==>
      && r.projection.Some? && WindowOf(t).Some?
      && UniqueKeys(WindowRows(t, WindowOf(t).value)) && UniqueKeys(t)
    ensures r.changes.Some? <==>
      && r.projection.Some? && WindowOf(t).Some? && UniqueKeys(WindowRows(t, WindowOf(t).value))
    ensures r.projection.Some? ==> Project(t) == Success(r.projection.value)
    ensures r.changes.Some? ==> FiveYearChange(t) == Success(r.changes)
    ensures r.top.Some? ==> r.top.value == TopChanges(t) && r.styles.value == Styles(r.top.value)
    ensures r.heatmap.Some? ==> Pivot(t) == Success(r.heatmap.value)
  {
    match Project(t)
    case Failure(e) => Report(None, None, None, None, None, Crashed(e))
    case Success(p) =>
      match FiveYearChange(t)
      case Failure(e) => Report(Some(p), None, None, None, None, Crashed(e))
      case Success(None) => Report(Some(p), None, None, None, None, ReturnedEarly)
      case Success(Some(c)) => Finish(t, p, c)
  }

  /** The whole constructor on the rows read from the uploaded file. */
  function Run(raw: seq<RawRow>): (r: Report)
    ensures WellOrdered(r)
    ensures r.ending == Crashed(InvalidData) <==> Normalize(raw).Failure?
    ensures r.ending == Crashed(NoNationalRows) <==> Normalize(raw).Success? && r.projection.None?
    ensures r.projection.Some? <==>
      Normalize(raw).Success? && exists i :: 0 <= i < |raw| && raw[i].region == National
    ensures r.ending == ReturnedEarly <==> r.projection.Some? && |DistinctYears(Normalize(raw).value)| < Span
    ensures r.ending == Completed <==>
      && Normalize(raw).Success? && r.projection.Some?
      && (var t := Normalize(raw).value;
          WindowOf(t).Some? && UniqueKeys(WindowRows(t, WindowOf(t).value)) && UniqueKeys(t))
    ensures r.changes.Some? <==>
      && Normalize(raw).Success? && r.projection.Some?
      && (var t := Normalize(raw).value;
          WindowOf(t).Some? && UniqueKeys(WindowRows(t, WindowOf(t).value)))
    ensures Normalize(raw).Success? ==>
      var t := Normalize(raw).value;
      && (r.projection.Some? ==> Project(t) == Success(r.projection.value))
      && (r.changes.Some? ==> FiveYearChange(t) == Success(r.changes))
      && (r.top.Some? ==> r.top.value == TopChanges(t) && r.styles.value == Styles(r.top.value))
      && (r.heatmap.Some? ==> Pivot(t) == Success(r.heatmap.value))
  {
    match Normalize(raw)
    case Failure(e) => Report(None, None, None, None, None, Crashed(e))
    case Success(t) => Analyse(t)
  }
}

=== FILE: pivot.dfy ===
/** `DataFrame.pivot(index=region, columns=year, values=population)`: the
    region-by-year grid of populations. pandas refuses to reshape when the
    same (region, year) pair occurs twice; a pair that never occurs is a NaN
    cell, modelled as an absent key. */
module Pivoting {
  import opened Wrappers
  import opened Table

  datatype Grid = Grid(regions: set<string>, years: set<int>, cells: map<(string, int), int>)

  function Key(x: Row): (string, int)
  {
    (x.region, x.year)
  }

  /** No two rows share a (region, year) pair. */
  predicate UniqueKeys(t: seq<Row>)
  {
    forall i, j :: 0 <= i < j < |t| ==> Key(t[i]) != Key(t[j])
  }

  /** The population of each (region, year) pair present, as the heatmap shows it. */
  function PopulationCells(t: seq<Row>): (m: map<(string, int), int>)
    ensures m.Keys == set x | x in t :: Key(x)
    ensures UniqueKeys(t) ==> forall i :: 0 <= i < |t| ==> m[Key(t[i])] == t[i].population
  {
    if |t| == 0 then map[]
    else
      var init := t[..|t| - 1];
      var last := t[|t| - 1];
      assert t == init + [last];
      PopulationCellsStep(init, last, PopulationCells(init));
      PopulationCells(init)[Key(last) := last.population]
  }

  /** Adding the last row's cell to the cells of the rows before it. */
  lemma PopulationCellsStep(init: seq<Row>, last: Row, prev: map<(string, int), int>)
    requires prev.Keys == set x | x in init :: Key(x)
    requires UniqueKeys(init) ==> forall i :: 0 <= i < |init| ==> prev[Key(init[i])] == init[i].population
    ensures var t, m := init + [last], prev[Key(last) := last.population];
      && m.Keys == (set x | x in t :: Key(x))
      && (UniqueKeys(t) ==> forall i :: 0 <= i < |t| ==> m[Key(t[i])] == t[i].population)
  {
    var t := init + [last];
    var m := prev[Key(last) := last.population];
    assert (set x | x in t :: Key(x)) == (set x | x in init :: Key(x)) + {Key(last)};
    if UniqueKeys(t) {
      assert UniqueKeys(init) by {
        forall i, j | 0 <= i < j < |init|
          ensures Key(init[i]) != Key(init[j])
        {
          assert t[i] == init[i] && t[j] == init[j];
        }
      }
      forall i | 0 <= i < |t|
        ensures m[Key(t[i])] == t[i].population
      {
        if i < |init| {
          assert t[i] == init[i] && t[|init|] == last;
          assert Key(t[i]) != Key(t[|init|]);
        }
      }
    }
  }

  /** The grid of `t`, or DuplicateEntry when a (region, year) pair repeats. */
  function Pivot(t: seq<Row>): (r: Result<Grid, Error>)
    ensures r.Failure? <==> !UniqueKeys(t)
    ensures r.Failure? ==> r.error == DuplicateEntry
    ensures r.Success? ==> r.value.regions == set x | x in t :: x.region
    ensures r.Success? ==> r.value.years == set x | x in t :: x.year
    ensures r.Success? ==> r.value.cells.Keys == set x | x in t :: Key(x)
    ensures r.Success? ==> forall i :: 0 <= i < |t| ==> r.value.cells[Key(t[i])] == t[i].population
  {
    if UniqueKeys(t) then
      Success(Grid(set x | x in t :: x.region, set x | x in t :: x.year, PopulationCells(t)))
    else Failure(DuplicateEntry)
  }

  /** The cell for (region, year): NaN (None) when no row has that pair. */
  function Lookup(g: Grid, region: string, year: int): Option<int>
  {
    if (region, year) in g.cells then Some(g.cells[(region, year)]) else None
  }

  /** `p` is the population the table records for (region, year): the
      population of the row with that pair, or None when there is no such row. */
  ghost predicate PopulationIs(t: seq<Row>, region: string, year: int, p: Option<int>)
  {
    && (p.None? <==> forall i :: 0 <= i < |t| ==> Key(t[i]) != (region, year))
    && (p.Some? ==> exists i :: 0 <= i < |t| && Key(t[i]) == (region, year) && t[i].population == p.value)
  }

  /** Every cell of the grid is the population the table records for its pair. */
  lemma LookupIsPopulation(t: seq<Row>, region: string, year: int)
    requires Pivot(t).Success?
    ensures PopulationIs(t, region, year, Lookup(Pivot(t).value, region, year))
  {
    var g := Pivot(t).value;
    if (region, year) in g.cells {
      var x :| x in t && Key(x) == (region, year);
      var i :| 0 <= i < |t| && t[i] == x;
    } else {
      forall i | 0 <= i < |t|
        ensures Key(t[i]) != (region, year)
      {
        assert Key(t[i]) in g.cells.Keys;
      }
    }
  }

  /** Two rows for the same pair make the reshape fail. */
  lemma DuplicateExample()
    ensures Pivot([Row("A", 2020, 1, 0, 0), Row("A", 2020, 2, 0, 0)]) == Failure(DuplicateEntry)
  {
    var t := [Row("A", 2020, 1, 0, 0), Row("A", 2020, 2, 0, 0)];
    assert Key(t[0]) == Key(t[1]);
  }
}

=== FILE: projection.dfy ===
/** The national trend tab: the nationwide rows sorted by year, the last (up
    to) three of them, and the linear projection of the population to 2035
    from their average births and deaths. */
module Projection {
  import opened Wrappers
  import opened Table
  import opened Sequences

  const TargetYear: int := 2035

  /** How many of the most recent nationwide rows the averages use. */
  const WindowSize: nat := 3

  function YearOf(x: Row): int
  {
    x.year
  }

  function BirthsOf(x: Row): int
  {
    x.births
  }

  function DeathsOf(x: Row): int
  {
    x.deaths
  }

  function Mean(w: seq<Row>, f: Row -> int): real
    requires |w| > 0
  {
    Sum(w, f) as real / |w| as real
  }

  /** The projection formula applied to a window whose last row is the latest:
      over the years left to the target, the latest population grows by the
      window's total births less its total deaths, shared out over its rows. */
  function Estimate(w: seq<Row>): (r: real)
    requires |w| > 0
    ensures (r - w[|w| - 1].population as real) * |w| as real
         == (Sum(w, BirthsOf) - Sum(w, DeathsOf)) as real * (TargetYear - w[|w| - 1].year) as real
  {
    var latest := w[|w| - 1];
    var n, years := |w| as real, (TargetYear - latest.year) as real;
    var b, d := Sum(w, BirthsOf) as real, Sum(w, DeathsOf) as real;
    assert (b / n - d / n) * n == b - d;
    assert (b / n - d / n) * years * n == (b - d) * years;
    latest.population as real + (Mean(w, BirthsOf) - Mean(w, DeathsOf)) * years
  }

  /** Before the target year, the projection exceeds the latest population
      exactly when the window saw more births than deaths, and falls short of
      it exactly when it saw fewer. */
  lemma EstimateDirection(w: seq<Row>)
    requires |w| > 0 && w[|w| - 1].year < TargetYear
    ensures Estimate(w) > w[|w| - 1].population as real <==> Sum(w, BirthsOf) > Sum(w, DeathsOf)
    ensures Estimate(w) < w[|w| - 1].population as real <==> Sum(w, BirthsOf) < Sum(w, DeathsOf)
  {
  }

  /** `w` is a possible value of the recent selection: min(3, n) of the n
      nationwide rows, in ascending year order, and no nationwide row left out
      of it is more recent than any row in it. */
  ghost predicate IsRecentWindow(w: seq<Row>, t: seq<Row>)
  {
    var nationals := Filter(t, IsNational);
    && |w| == Min(WindowSize, |nationals|)
    && SortedBy(w, YearOf)
    && multiset(w) <= multiset(nationals)
    && forall x, y :: x in multiset(nationals) - multiset(w) && y in w ==> x.year <= y.year
  }

  /** The projected 2035 population. It fails only when there is no
      nationwide row at all; with one or two such rows it averages over those. */
  function Project(t: seq<Row>): (r: Result<real, Error>)
    ensures r.Failure? <==> forall i :: 0 <= i < |t| ==> t[i].region != National
    ensures r.Failure? ==> r.error == NoNationalRows
    ensures r.Success? ==> exists w :: IsRecentWindow(w, t) && |w| > 0 && r.value == Estimate(w)
  {
    var nationals := Filter(t, IsNational);
    var sorted := SortBy(nationals, YearOf);
    NationalPresence(t);
    if |sorted| == 0 then Failure(NoNationalRows)
    else
      var recent := sorted[|sorted| - Min(WindowSize, |sorted|)..];
      RecentIsWindow(t, sorted, recent);
      Success(Estimate(recent))
  }

  lemma NationalPresence(t: seq<Row>)
    ensures |Filter(t, IsNational)| == 0 <==> forall i :: 0 <= i < |t| ==> t[i].region != National
  {
    var nationals := Filter(t, IsNational);
    if exists i :: 0 <= i < |t| && t[i].region == National {
      var i :| 0 <= i < |t| && t[i].region == National;
      FilterMembership(t, IsNational, t[i]);
    }
    if |nationals| > 0 {
      assert IsNational(nationals[0]);
      FilterMembership(t, IsNational, nationals[0]);
    }
  }

  lemma RecentIsWindow(t: seq<Row>, sorted: seq<Row>, recent: seq<Row>)
    requires sorted == SortBy(Filter(t, IsNational), YearOf)
    requires |sorted| > 0
    requires recent == sorted[|sorted| - Min(WindowSize, |sorted|)..]
    ensures IsRecentWindow(recent, t)
  {
    SortedSuffix(sorted, YearOf, |sorted| - Min(WindowSize, |sorted|));
  }

  /** The row the projection starts from is the most recent nationwide row. */
  lemma LatestIsMostRecent(t: seq<Row>, w: seq<Row>)
    requires IsRecentWindow(w, t) && |w| > 0
    ensures w[|w| - 1] in t && w[|w| - 1].region == National
    ensures forall i :: 0 <= i < |t| && t[i].region == National ==> t[i].year <= w[|w| - 1].year
  {
    var nationals := Filter(t, IsNational);
    var latest := w[|w| - 1];
    assert latest in multiset(nationals);
    FilterMembership(t, IsNational, latest);
    forall i | 0 <= i < |t| && t[i].region == National
      ensures t[i].year <= latest.year
    {
      FilterMembership(t, IsNational, t[i]);
      NationalNotAfterWindow(t, w, t[i]);
    }
  }

  lemma NationalNotAfterWindow(t: seq<Row>, w: seq<Row>, x: Row)
    requires IsRecentWindow(w, t) && |w| > 0
    requires x in multiset(Filter(t, IsNational))
    ensures x.year <= w[|w| - 1].year
  {
    var nationals := Filter(t, IsNational);
    if x !in multiset(nationals) - multiset(w) {
      assert x in w;
      var j :| 0 <= j < |w| && w[j] == x;
      if j < |w| - 1 {
        assert YearOf(w[j]) <= YearOf(w[|w| - 1]);
      }
    }
  }

  /** When the window's average births equal its average deaths, the
      projection is the latest population unchanged. */
  lemma SteadyState(w: seq<Row>)
    requires |w| > 0
    requires Mean(w, BirthsOf) == Mean(w, DeathsOf)
    ensures Estimate(w) == w[|w| - 1].population as real
  {
  }

  /** A table whose every nationwide row has as many births as deaths projects
      the population of its most recent nationwide row. */
  lemma BalancedTableIsSteady(t: seq<Row>)
    requires forall i :: 0 <= i < |t| && t[i].region == National ==> t[i].births == t[i].deaths
    requires exists i :: 0 <= i < |t| && t[i].region == National
    ensures Project(t).Success?
    ensures exists i :: (0 <= i < |t| && t[i].region == National
      && (forall j :: 0 <= j < |t| && t[j].region == National ==> t[j].year <= t[i].year)
      && Project(t).value == t[i].population as real)
  {
    var i0 :| 0 <= i0 < |t| && t[i0].region == National;
    assert Project(t).Success?;
    var w :| IsRecentWindow(w, t) && |w| > 0 && Project(t).value == Estimate(w);
    var nationals := Filter(t, IsNational);
    forall k | 0 <= k < |w|
      ensures BirthsOf(w[k]) == DeathsOf(w[k])
    {
      assert w[k] in multiset(w);
      assert w[k] in multiset(nationals);
      FilterMembership(t, IsNational, w[k]);
    }
    SumAgree(w, BirthsOf, DeathsOf);
    SteadyState(w);
    LatestIsMostRecent(t, w);
    var i :| 0 <= i < |t| && t[i] == w[|w| - 1];
  }

  /** On a table of nationwide rows already in year order, the projection is
      the formula over its last min(3, n) rows. */
  lemma ProjectOrderedNational(t: seq<Row>)
    requires |t| > 0
    requires forall i :: 0 <= i < |t| ==> t[i].region == National
    requires SortedBy(t, YearOf)
    ensures Project(t) == Success(Estimate(t[|t| - Min(WindowSize, |t|)..]))
  {
    FilterKeepsAll(t, IsNational);
    SortSorted(t, YearOf);
  }

  lemma ThreeYearEstimate()
    ensures Estimate([Row(National, 2020, 100, 10, 5), Row(National, 2021, 102, 11, 6),
                      Row(National, 2022, 105, 12, 7)]) == 170.0
  {
    var a, b, c := Row(National, 2020, 100, 10, 5), Row(National, 2021, 102, 11, 6), Row(National, 2022, 105, 12, 7);
    var t := [a, b, c];
    assert t[..2] == [a, b] && [a, b][..1] == [a] && [a][..0] == [];
    assert Sum([a], BirthsOf) == 10;
    assert Sum([a], DeathsOf) == 5;
    assert Sum([a, b], BirthsOf) == 21;
    assert Sum([a, b], DeathsOf) == 11;
    assert Sum(t, BirthsOf) == 33;
    assert Sum(t, DeathsOf) == 18;
  }

  /** Three consecutive nationwide years: births average 11, deaths 6, and 13
      years remain to 2035, so 105 + 5 * 13. */
  lemma ThreeYearExample()
    ensures Project([Row(National, 2020, 100, 10, 5), Row(National, 2021, 102, 11, 6), Row(National, 2022, 105, 12, 7)])
         == Success(170.0)
  {
    var a, b, c := Row(National, 2020, 100, 10, 5), Row(National, 2021, 102, 11, 6), Row(National, 2022, 105, 12, 7);
    var t := [a, b, c];
    assert SortedBy(t, YearOf);
    ProjectOrderedNational(t);
    assert t[|t| - Min(WindowSize, |t|)..] == t;
    ThreeYearEstimate();
  }

  /** A single nationwide row is enough: the averages are its own counts. */
  lemma SingleRowExample()
    ensures Project([Row(National, 2030, 1000, 30, 10)]) == Success(1100.0)
  {
    var t := [Row(National, 2030, 1000, 30, 10)];
    ProjectOrderedNational(t);
    assert Min(WindowSize, |t|) == 1;
    assert t[0..] == t;
    assert t[..0] == [];
    assert Sum(t, BirthsOf) == 30;
    assert Sum(t, DeathsOf) == 10;
    assert Mean(t, BirthsOf) == 30.0;
    assert Mean(t, DeathsOf) == 10.0;
    assert Estimate(t) == 1100.0;
  }
}

=== FILE: sequences.dfy ===
/** Order-preserving filtering, a stable insertion sort by an integer key, a
    descending sort that puts missing values last, and sums over a column: the
    pandas idioms (boolean masks, sort_values, column means) the analyses are
    built from. */
module Sequences {
  import opened Wrappers

  /** The smaller of two counts, as `tail(n)` and `nlargest(n)` bound their results. */
  function Min(a: int, b: int): (r: int)
    ensures r <= a && r <= b && (r == a || r == b)
  {
    if a <= b then a else b
  }

  /** Keeps the elements satisfying `p`, in their original order. */
  function Filter<T(!new)>(s: seq<T>, p: T -> bool): (r: seq<T>)
    ensures forall i :: 0 <= i < |r| ==> p(r[i])
    ensures forall x :: multiset(r)[x] == if p(x) then multiset(s)[x] else 0
    ensures |r| <= |s|
  {
    if |s| == 0 then []
    else
      var rest := Filter(s[..|s| - 1], p);
      assert s == s[..|s| - 1] + [s[|s| - 1]];
      if p(s[|s| - 1]) then rest + [s[|s| - 1]] else rest
  }

  /** The positions of the elements satisfying `p`, in increasing order: an
      independent description of which elements a filter keeps and where. */
  function KeptIndices<T>(s: seq<T>, p: T -> bool): (idx: seq<nat>)
    ensures forall k :: 0 <= k < |idx| ==> idx[k] < |s| && p(s[idx[k]])
    ensures forall a, b :: 0 <= a < b < |idx| ==> idx[a] < idx[b]
    ensures forall i :: 0 <= i < |s| && p(s[i]) ==> i in idx
  {
    if |s| == 0 then []
    else
      var init := KeptIndices(s[..|s| - 1], p);
      assert forall k :: 0 <= k < |init| ==> s[init[k]] == s[..|s| - 1][init[k]];
      assert forall i :: 0 <= i < |s| - 1 ==> s[i] == s[..|s| - 1][i];
      if p(s[|s| - 1]) then init + [|s| - 1] else init
  }

  /** The filter keeps exactly the elements at the kept positions, in order:
      its k-th element is the element at the k-th kept position. */
  lemma {:induction false} FilterKeepsOrder<T(!new)>(s: seq<T>, p: T -> bool)
    ensures |Filter(s, p)| == |KeptIndices(s, p)|
    ensures forall k :: 0 <= k < |Filter(s, p)| ==> Filter(s, p)[k] == s[KeptIndices(s, p)[k]]
  {
    if |s| > 0 {
      var init := s[..|s| - 1];
      var f, idx := Filter(init, p), KeptIndices(init, p);
      FilterKeepsOrder(init, p);
      assert forall k :: 0 <= k < |idx| ==> idx[k] < |s| - 1 && s[idx[k]] == init[idx[k]];
      KeepLast(s, p(s[|s| - 1]), f, idx);
    }
  }

  /** One more element, kept or not, extends a filter and its kept positions in step. */
  lemma KeepLast<T>(s: seq<T>, keep: bool, f: seq<T>, idx: seq<nat>)
    requires |s| > 0 && |f| == |idx|
    requires forall k :: 0 <= k < |f| ==> idx[k] < |s| - 1 && f[k] == s[idx[k]]
    ensures var f', idx' := (if keep then f + [s[|s| - 1]] else f), (if keep then idx + [|s| - 1] else idx);
      |f'| == |idx'| && forall k :: 0 <= k < |f'| ==> f'[k] == s[idx'[k]]
  {
  }

  /** An element kept by the filter is an element of the input satisfying `p`, and conversely. */
  lemma FilterMembership<T(!new)>(s: seq<T>, p: T -> bool, x: T)
    ensures x in Filter(s, p) <==> x in s && p(x)
  {
    assert x in Filter(s, p) <==> multiset(Filter(s, p))[x] > 0;
    assert x in s <==> multiset(s)[x] > 0;
  }

  /** Two complementary filters split the input without loss or duplication. */
  lemma FilterPartition<T(!new)>(s: seq<T>, p: T -> bool, q: T -> bool)
    requires forall x :: q(x) == !p(x)
    ensures multiset(Filter(s, p)) + multiset(Filter(s, q)) == multiset(s)
    ensures |Filter(s, p)| + |Filter(s, q)| == |s|
  {
    var a, b := Filter(s, p), Filter(s, q);
    assert forall x :: (multiset(a) + multiset(b))[x] == multiset(s)[x];
    assert multiset(a) + multiset(b) == multiset(s);
    assert |multiset(a) + multiset(b)| == |multiset(s)|;
  }

  /** No element occurs twice. */
  predicate Distinct<T(==)>(s: seq<T>)
  {
    forall i, j :: 0 <= i < j < |s| ==> s[i] != s[j]
  }

  /** A sequence is duplicate-free exactly when its multiset counts every element at most once. */
  lemma {:induction false} DistinctByCount<T(!new)>(s: seq<T>)
    ensures Distinct(s) <==> forall x :: multiset(s)[x] <= 1
  {
    if |s| > 0 {
      var rest := s[1..];
      assert s == [s[0]] + rest;
      DistinctByCount(rest);
      if Distinct(s) {
        assert s[0] !in rest by {
          forall j | 0 <= j < |rest|
            ensures rest[j] != s[0]
          {
            assert rest[j] == s[j + 1];
          }
        }
        assert Distinct(rest) by {
          forall i, j | 0 <= i < j < |rest|
            ensures rest[i] != rest[j]
          {
            assert rest[i] == s[i + 1] && rest[j] == s[j + 1];
          }
        }
      }
      if forall x :: multiset(s)[x] <= 1 {
        assert forall x :: multiset(rest)[x] <= 1 by {
          forall x
            ensures multiset(rest)[x] <= 1
          {
            assert multiset(s)[x] == multiset([s[0]])[x] + multiset(rest)[x];
          }
        }
        assert multiset(s)[s[0]] == 1 + multiset(rest)[s[0]];
        forall i, j | 0 <= i < j < |s|
          ensures s[i] != s[j]
        {
          if i == 0 {
            assert s[j] == rest[j - 1];
          } else {
            assert s[i] == rest[i - 1] && s[j] == rest[j - 1];
          }
        }
      }
    }
  }

  /** Rearranging a duplicate-free sequence leaves it duplicate-free. */
  lemma PermutationKeepsDistinct<T(!new)>(a: seq<T>, b: seq<T>)
    requires multiset(a) == multiset(b)
    requires Distinct(a)
    ensures Distinct(b)
  {
    DistinctByCount(a);
    DistinctByCount(b);
  }

  /** The keys of `s` never decrease. */
  predicate SortedBy<T>(s: seq<T>, key: T -> int)
  {
    forall i, j :: 0 <= i < j < |s| ==> key(s[i]) <= key(s[j])
  }

  /** Dropping the first element keeps a sequence sorted. */
  lemma SortedTail<T>(s: seq<T>, key: T -> int)
    requires SortedBy(s, key) && |s| > 0
    ensures SortedBy(s[1..], key)
    ensures forall k :: 0 <= k < |s| - 1 ==> key(s[0]) <= key(s[1..][k])
  {
    var rest := s[1..];
    forall i, j | 0 <= i < j < |rest|
      ensures key(rest[i]) <= key(rest[j])
    {
      assert rest[i] == s[i + 1] && rest[j] == s[j + 1];
    }
    forall k | 0 <= k < |rest|
      ensures key(s[0]) <= key(rest[k])
    {
      assert rest[k] == s[k + 1];
    }
  }

  /** Places `x` before the first element whose key is not smaller, so that
      equal keys keep the order in which they were inserted. */
  function Insert<T>(x: T, s: seq<T>, key: T -> int): (r: seq<T>)
    requires SortedBy(s, key)
    ensures SortedBy(r, key)
    ensures multiset(r) == multiset(s) + multiset{x}
    ensures |r| == |s| + 1
  {
    if |s| == 0 then [x]
    else if key(x) <= key(s[0]) then
      InsertFront(x, s, key);
      [x] + s
    else
      SortedTail(s, key);
      var tail := Insert(x, s[1..], key);
      InsertBehindHead(x, s, key, tail);
      [s[0]] + tail
  }

  lemma InsertFront<T>(x: T, s: seq<T>, key: T -> int)
    requires SortedBy(s, key) && |s| > 0 && key(x) <= key(s[0])
    ensures SortedBy([x] + s, key)
    ensures multiset([x] + s) == multiset(s) + multiset{x}
  {
    var r := [x] + s;
    forall i, j | 0 <= i < j < |r|
      ensures key(r[i]) <= key(r[j])
    {
      assert r[j] == s[j - 1];
      if i > 0 {
        assert r[i] == s[i - 1];
      }
    }
  }

  /** Keeping the head in front of the insertion into the tail, when `x`
      belongs after the head. */
  lemma InsertBehindHead<T>(x: T, s: seq<T>, key: T -> int, tail: seq<T>)
    requires SortedBy(s, key) && |s| > 0 && key(s[0]) < key(x)
    requires SortedBy(tail, key) && multiset(tail) == multiset(s[1..]) + multiset{x}
    ensures SortedBy([s[0]] + tail, key)
    ensures multiset([s[0]] + tail) == multiset(s) + multiset{x}
  {
    assert s == [s[0]] + s[1..];
    var r := [s[0]] + tail;
    forall k | 0 <= k < |tail|
      ensures key(s[0]) <= key(tail[k])
    {
      assert tail[k] in multiset(tail);
      if tail[k] != x {
        assert tail[k] in multiset(s[1..]);
        var i :| 0 <= i < |s[1..]| && s[1..][i] == tail[k];
        assert s[i + 1] == tail[k];
      }
    }
    forall i, j | 0 <= i < j < |r|
      ensures key(r[i]) <= key(r[j])
    {
      assert r[j] == tail[j - 1];
      if i > 0 {
        assert r[i] == tail[i - 1];
      }
    }
  }

  /** Sorts by ascending key; elements with equal keys keep their input order. */
  function SortBy<T>(s: seq<T>, key: T -> int): (r: seq<T>)
    ensures SortedBy(r, key)
    ensures multiset(r) == multiset(s)
    ensures |r| == |s|
  {
    if |s| == 0 then []
    else
      assert s == [s[0]] + s[1..];
      Insert(s[0], SortBy(s[1..], key), key)
  }

  /** A filter that keeps every element is the identity. */
  lemma {:induction false} FilterKeepsAll<T(!new)>(s: seq<T>, p: T -> bool)
    requires forall i :: 0 <= i < |s| ==> p(s[i])
    ensures Filter(s, p) == s
  {
    if |s| > 0 {
      FilterKeepsAll(s[..|s| - 1], p);
      assert s == s[..|s| - 1] + [s[|s| - 1]];
    }
  }

  /** Sorting an already sorted sequence leaves it unchanged. */
  lemma {:induction false} SortSorted<T>(s: seq<T>, key: T -> int)
    requires SortedBy(s, key)
    ensures SortBy(s, key) == s
  {
    if |s| > 0 {
      var rest := s[1..];
      SortedTail(s, key);
      SortSorted(rest, key);
      assert s == [s[0]] + rest;
      assert Insert(s[0], rest, key) == s;
    }
  }

  /** The sum of one integer column. */
  function Sum<T>(s: seq<T>, f: T -> int): int
  {
    if |s| == 0 then 0 else Sum(s[..|s| - 1], f) + f(s[|s| - 1])
  }

  /** Columns that agree on every row have equal sums. */
  lemma {:induction false} SumAgree<T>(s: seq<T>, f: T -> int, g: T -> int)
    requires forall i :: 0 <= i < |s| ==> f(s[i]) == g(s[i])
    ensures Sum(s, f) == Sum(s, g)
  {
    if |s| > 0 {
      SumAgree(s[..|s| - 1], f, g);
    }
  }

  /** A suffix of a sorted sequence is sorted, is drawn from the sequence, and
      every element left out of it has a key no larger than any element in it. */
  lemma SortedSuffix<T>(s: seq<T>, key: T -> int, k: nat)
    requires SortedBy(s, key)
    requires k <= |s|
    ensures SortedBy(s[k..], key)
    ensures multiset(s[k..]) <= multiset(s)
    ensures forall x, y :: x in multiset(s) - multiset(s[k..]) && y in s[k..] ==> key(x) <= key(y)
  {
    var prefix, suffix := s[..k], s[k..];
    assert s == prefix + suffix;
    assert multiset(s) - multiset(suffix) == multiset(prefix);
    SuffixSorted(s, key, k);
    PrefixBelowSuffix(s, key, k);
  }

  lemma SuffixSorted<T>(s: seq<T>, key: T -> int, k: nat)
    requires SortedBy(s, key)
    requires k <= |s|
    ensures SortedBy(s[k..], key)
  {
    var suffix := s[k..];
    forall i, j | 0 <= i < j < |suffix|
      ensures key(suffix[i]) <= key(suffix[j])
    {
      assert suffix[i] == s[k + i] && suffix[j] == s[k + j];
    }
  }

  lemma PrefixBelowSuffix<T>(s: seq<T>, key: T -> int, k: nat)
    requires SortedBy(s, key)
    requires k <= |s|
    ensures forall x, y :: x in multiset(s[..k]) && y in s[k..] ==> key(x) <= key(y)
  {
    var prefix, suffix := s[..k], s[k..];
    forall x, y | x in multiset(prefix) && y in suffix
      ensures key(x) <= key(y)
    {
      assert x in prefix;
      var i :| 0 <= i < k && prefix[i] == x;
      var j :| 0 <= j < |suffix| && suffix[j] == y;
      assert prefix[i] == s[i] && suffix[j] == s[k + j];
    }
  }

  /** Elements with a value come first, in non-increasing order of value;
      elements without one (NaN) come last. */
  predicate DescendingNoneLast<T>(s: seq<T>, value: T -> Option<int>)
  {
    forall i, j :: 0 <= i < j < |s| && value(s[j]).Some? ==>
      value(s[i]).Some? && value(s[i]).value >= value(s[j]).value
  }

  /** How many elements have a value. */
  function CountSome<T>(s: seq<T>, value: T -> Option<int>): (n: nat)
    ensures n <= |s|
  {
    if |s| == 0 then 0
    else CountSome(s[..|s| - 1], value) + (if value(s[|s| - 1]).Some? then 1 else 0)
  }

  lemma {:induction false} FilterCountsSome<T(!new)>(s: seq<T>, value: T -> Option<int>, has: T -> bool)
    requires forall x :: has(x) == value(x).Some?
    ensures |Filter(s, has)| == CountSome(s, value)
  {
    if |s| > 0 {
      FilterCountsSome(s[..|s| - 1], value, has);
    }
  }

  /** `sort_values(column, ascending=False)` with NaN placed last. Equal values
      and the NaN elements keep their input order. */
  function SortDescendingNoneLast<T(!new)>(s: seq<T>, value: T -> Option<int>): (r: seq<T>)
    ensures multiset(r) == multiset(s)
    ensures |r| == |s|
    ensures DescendingNoneLast(r, value)
    ensures forall k :: 0 <= k < |r| ==> (value(r[k]).Some? <==> k < CountSome(s, value))
  {
    var has := x => value(x).Some?;
    var lacks := x => value(x).None?;
    var key := x => if value(x).Some? then -value(x).value else 0;
    var present := Filter(s, has);
    var ranked := SortBy(present, key);
    var missing := Filter(s, lacks);
    FilterPartition(s, has, lacks);
    FilterCountsSome(s, value, has);
    RankedThenMissing(present, ranked, missing, value, key);
    ranked + missing
  }

  lemma RankedThenMissing<T>(present: seq<T>, ranked: seq<T>, missing: seq<T>,
                             value: T -> Option<int>, key: T -> int)
    requires forall k :: 0 <= k < |present| ==> value(present[k]).Some?
    requires forall x :: value(x).Some? ==> key(x) == -value(x).value
    requires multiset(ranked) == multiset(present) && SortedBy(ranked, key)
    requires forall k :: 0 <= k < |missing| ==> value(missing[k]).None?
    ensures DescendingNoneLast(ranked + missing, value)
    ensures forall k :: 0 <= k < |ranked + missing| ==> (value((ranked + missing)[k]).Some? <==> k < |ranked|)
  {
    forall k | 0 <= k < |ranked|
      ensures value(ranked[k]).Some?
    {
      assert ranked[k] in multiset(present);
    }
    var r := ranked + missing;
    forall j | |ranked| <= j < |r|
      ensures value(r[j]).None?
    {
      assert r[j] == missing[j - |ranked|];
    }
    forall i, j | 0 <= i < j < |r| && value(r[j]).Some?
      ensures value(r[i]).Some? && value(r[i]).value >= value(r[j]).value
    {
      assert key(ranked[i]) <= key(ranked[j]);
    }
  }
}

=== FILE: table.dfy ===
/** The observation table: one row per (region, year), the raw cells as read
    from the file, the errors the pipeline can raise, and the normalisation
    step that replaces the `-` placeholder by 0 and coerces the three count
    columns to integers. */
module Table {
  import opened Wrappers
  import Cells

  /** The region label of the nationwide aggregate rows. */
  const National: string := "전국"

  /** The missing-value placeholder of the count columns. */
  const Placeholder: string := "-"

  /** A row as read from the file: region and year already typed, the three
      counts still text. */
  datatype RawRow = RawRow(region: string, year: int, population: string, births: string, deaths: string)

  /** A normalised row. */
  datatype Row = Row(region: string, year: int, population: int, births: int, deaths: int)

  /** InvalidData: a count cell is not an integer. NoNationalRows: the
      projection indexed the last row of an empty selection. DuplicateEntry:
      a pivot met the same (region, year) twice. */
  datatype Error = InvalidData | NoNationalRows | DuplicateEntry

  predicate IsNational(x: Row)
  {
    x.region == National
  }

  predicate IsRegional(x: Row)
  {
    x.region != National
  }

  /** The range of the 64-bit integers `astype(int)` converts to. */
  predicate InInt64(v: int)
  {
    -0x8000_0000_0000_0000 <= v < 0x8000_0000_0000_0000
  }

  /** The integer a count cell becomes, if any: none for text that is not an
      integer or whose value does not fit in 64 bits. */
  function CellValue(cell: string): Option<int>
  {
    if cell == Placeholder then Some(0)
    else
      var v := Cells.ParseInt(cell);
      if v.Some? && InInt64(v.value) then v else None
  }

  predicate ValidRow(x: RawRow)
  {
    CellValue(x.population).Some? && CellValue(x.births).Some? && CellValue(x.deaths).Some?
  }

  /** What a count cell must become: 0 for the placeholder, its own integer
      value otherwise, which fits in 64 bits. */
  predicate Normalised(cell: string, v: int)
  {
    if cell == Placeholder then v == 0 else Cells.ParseInt(cell) == Some(v) && InInt64(v)
  }

  function NormalizeRow(x: RawRow): (y: Row)
    requires ValidRow(x)
    ensures y.region == x.region && y.year == x.year
    ensures Normalised(x.population, y.population)
    ensures Normalised(x.births, y.births)
    ensures Normalised(x.deaths, y.deaths)
  {
    Row(x.region, x.year, CellValue(x.population).value, CellValue(x.births).value, CellValue(x.deaths).value)
  }

  /** Normalises every row, or fails with InvalidData when any count cell is
      neither the placeholder nor a 64-bit integer. */
  function Normalize(raw: seq<RawRow>): (r: Result<seq<Row>, Error>)
    ensures r.Failure? <==> exists i :: 0 <= i < |raw| && !ValidRow(raw[i])
    ensures r.Failure? ==> r.error == InvalidData
    ensures r.Success? ==> |r.value| == |raw|
    ensures r.Success? ==> forall i :: 0 <= i < |raw| ==>
      && r.value[i].region == raw[i].region
      && r.value[i].year == raw[i].year
      && Normalised(raw[i].population, r.value[i].population)
      && Normalised(raw[i].births, r.value[i].births)
      && Normalised(raw[i].deaths, r.value[i].deaths)
  {
    if |raw| == 0 then Success([])
    else
      var last := raw[|raw| - 1];
      match Normalize(raw[..|raw| - 1])
      case Failure(e) => Failure(e)
      case Success(rows) =>
        if ValidRow(last) then Success(rows + [NormalizeRow(last)]) else Failure(InvalidData)
  }

  /** A count cell holding the decimal text of `n` becomes exactly `n` when
      `n` fits in 64 bits, and is rejected otherwise. */
  lemma IntegerCellKeepsValue(n: int)
    ensures InInt64(n) ==> Normalised(Cells.FormatInt(n), n)
    ensures CellValue(Cells.FormatInt(n)) == if InInt64(n) then Some(n) else None
  {
    Cells.ParseFormat(n);
    assert Cells.FormatInt(n) != Placeholder by {
      if n < 0 {
        assert |Cells.FormatInt(n)| > 1;
      } else {
        assert Cells.IsDigit(Cells.FormatInt(n)[0]);
      }
    }
  }

  /** A table whose cells are all placeholders or integer texts normalises,
      and each row keeps its region and year, unless a count overflows 64 bits. */
  lemma NormalizeOneRow(region: string, year: int, p: int, b: int)
    ensures Normalize([RawRow(region, year, Cells.FormatInt(p), Cells.FormatInt(b), Placeholder)])
         == if InInt64(p) && InInt64(b) then Success([Row(region, year, p, b, 0)]) else Failure(InvalidData)
  {
    var x := RawRow(region, year, Cells.FormatInt(p), Cells.FormatInt(b), Placeholder);
    IntegerCellKeepsValue(p);
    IntegerCellKeepsValue(b);
    assert [x][..0] == [];
    assert Normalize([x][..0]) == Success([]);
    if InInt64(p) && InInt64(b) {
      assert NormalizeRow(x) == Row(region, year, p, b, 0);
      assert ValidRow(x);
      assert [] + [NormalizeRow(x)] == [NormalizeRow(x)];
      assert Normalize([x]) == Success([NormalizeRow(x)]);
    } else {
      assert !ValidRow(x);
    }
  }

  /** Once a `-` births cell makes the births column text, an unreadable
      births cell elsewhere in it fails the whole table. */
  lemma NonIntegerCellFails(rows: seq<RawRow>, region: string, year: int)
    ensures Normalize(rows + [RawRow(region, year, "0", Placeholder, "0"),
                              RawRow(region, year + 1, Placeholder, "1.5", "0")]) == Failure(InvalidData)
  {
    var bad := RawRow(region, year + 1, Placeholder, "1.5", "0");
    var t := rows + [RawRow(region, year, "0", Placeholder, "0"), bad];
    Cells.ParseExamples();
    assert !ValidRow(bad);
    assert t[|rows| + 1] == bad;
  }
}

=== FILE: wrappers.dfy ===
/** The two failure-carrying shapes the pipeline needs: a value that may be
    missing (a NaN cell, an absent row) and a computation that may raise. */
module Wrappers {

  datatype Option<+T> = None | Some(value: T)

  datatype Result<+T, +E> = Success(value: T) | Failure(error: E)
}
